=== FILE: README.md ===
# YiiMongoDbSuite document layer in Dafny

This project models the in-memory document layer of YiiMongoDbSuite and proves properties of that model. It covers how a document:

- declares nested ("embedded") documents under attribute names;
- creates them lazily in a per-instance slot store;
- folds them into attribute listing, array conversion, attribute collection, scenario propagation and validation.

It also models three other parts of the suite:

- the soft-attribute variant, a per-instance array of extra attributes that is consulted before the embedded and plain logic;
- the dynamic-document variant, which never uses the per-class configuration cache;
- the `EMongoValidator` rule and its static `isMongoId()` check.

## Files

- `php_values.dfy` (module `PhpValues`): PHP values, as an abstract datatype with the driver's identifier and date objects. It also defines PHP `empty()` and `is_scalar()`, and the fatal errors and exceptions as a `Result`.
- `php_arrays.dfy` (module `PhpArrays`): string-keyed PHP arrays as ordered key/value sequences, with `$a[$k] = $v` (`Put`) and `unset` (`Remove`).
- `class_registry.dfy` (module `ClassRegistry`):
  - the class declarations of a program;
  - the class `Registry`, which holds the two process-wide caches `$_attributes` and `$_embeddedConfig`.
- `soft_attributes.dfy` (module `SoftAttributes`): the pure side of the soft variant, namely the name listing and the overlay its `_toArray()` applies.
- `validation.dfy` (module `Validation`): the base model's error store, as an ordered log of (attribute, message) pairs, and its per-attribute projection.
- `embedded_document.dfy` (module `EmbeddedDocument`): the class `Doc`. It covers `EMongoEmbeddedDocument` and the accessors of `EMongoSoftEmbeddedDocument`. A class without soft attributes has an empty soft array, so every soft override falls through to the parent logic.
- `dynamic_document.dfy` (module `DynamicDocument`): the class `DynamicDoc`.
- `mongo_validator.dfy` (module `MongoValidator`): the rule `EMongoValidator` and `isMongoId()`.

## How the model reads the PHP

A document holds four pieces of state:

- its public properties, as a map;
- its soft attributes, as an ordered array;
- its slot store, as `Option<map<string, Doc>>`, where `None` is PHP's null `$_embedded`;
- its scenario and its error store.

The slot documents are objects. A ghost footprint `Repr` makes the recursive operations terminate:

- conversion to an array;
- scenario propagation;
- validation.

`Valid()` allows two slots to share a document, as PHP object handles do. It forbids a document from reaching itself.

Validation also requires `Tree()`: the slots have pairwise disjoint footprints, so validating one slot cannot change another slot's errors. A new document is a `Tree()` when its class is well formed (unique embedded names), and filling a slot through `Read`, `WriteSlot` or `Write` keeps a `Tree()` one when every class of the program is well formed (`WellFormedWorld`). So validation stays callable after those writes.

Scenario propagation is stated for any valid document, shared slot documents included. `Doc.Reached()` is the set of documents that `setScenario()` visits: the document itself and, while its class declares embedded documents and its store is not null, everything reached from a filled slot. The `foreach` over the slot store is written as recursion over the slot keys not yet visited (`Doc.SetEachSlotScenario`).

PHP fatal errors become `Err` results:

- a method called on the null slot store is `NullStore`;
- the base component's "property is not defined" exception is `UndefinedProperty`;
- the validator's "Invalid validation type" exception is `InvalidType`.

Some PHP behaviour that the model reproduces:

- `attributeNames()` merges with `array_merge`. When the class declares embedded documents but its configuration was never cached (the init hook vetoed), `array_keys(null)` is null and `array_merge` yields null. The model returns `None` in that case. The inherited conversion loop and attribute collection then run zero times. In the soft variant the `_toArray()` overlay still adds every non-null soft attribute, so `toArray()` gives exactly those.
- Every soft key is listed by `attributeNames()`. So the inherited `_toArray()` loop already emits each soft key through the magic getter, and the soft overlay only rewrites the non-null ones.
  - As a result, a soft attribute holding null appears in `toArray()` as a key holding null. It is not omitted.
  - `Doc.ConvertedEntries` states this.
  - The class comment (EMongoSoftEmbeddedDocument.php:3-4) says a null soft attribute is not persisted, and the comment of `_toArray()` (EMongoSoftEmbeddedDocument.php:101-102) says it includes all non-null soft attributes. The model follows the code, where the inherited loop has already emitted the key.
- `validate()` reaches a slot document through `$this->$attribute`. The magic getter only recognises an embedded name whose class configuration is cached, so when it is not cached the read raises. The model reproduces this.
- The validator's `id` branch checks `strlen($value) === 24` before matching the pattern. As a result, in that branch the pattern's looser end anchor (see Findings) never matters. `EMongoValidator.Check` is proved against the strictly anchored `Filtered`.

## Model

| member | source | states |
|---|---|---|
| PhpArrays.Put | EMongoEmbeddedDocument.php:327-332 | Writing a key makes a lookup of that key yield the new value. The key list is unchanged when the key exists, otherwise the key is appended. Distinct keys stay distinct. |
| PhpArrays.PutOther | EMongoEmbeddedDocument.php:327-332 | Writing one key leaves the lookup of every other key unchanged. |
| PhpArrays.Remove | EMongoSoftEmbeddedDocument.php:80-81 | After `unset` the key is absent, every other key looks up as before, and the remaining keys keep their order. |
| ClassRegistry.Registry.AttributeNames | EMongoEmbeddedDocument.php:269-290 | The first call caches the public properties followed by the embedded names. Once cached, the same sequence is returned. The cache is only written for this class. The answer is null when embedded documents are declared but their configuration is not cached. |
| ClassRegistry.Registry.AttributeNamesTwice | EMongoEmbeddedDocument.php:269-290 | Two calls in a row return identical results, and the second matches the cache. |
| ClassRegistry.Registry.RecordEmbeddedConfig | EMongoEmbeddedDocument.php:81-82 | The class's embedded configuration is cached. An existing entry is never changed, and entries of other classes are untouched. |
| SoftAttributes.ListedNames | EMongoSoftEmbeddedDocument.php:93-98 | The listing is the soft keys in array order followed by the inherited names. Nothing is deduplicated, so its length is the sum of the two lengths. |
| SoftAttributes.OverlayLookup | EMongoSoftEmbeddedDocument.php:108-118 | After the overlay, a key holds its soft value when that value is not null, and the inherited conversion's entry otherwise. |
| SoftAttributes.OverlayKeys | EMongoSoftEmbeddedDocument.php:108-118 | The overlay adds exactly the keys of the non-null soft attributes. |
| Validation.MessagesAppend | EMongoEmbeddedDocument.php:395-397 | Adding a document's errors to the log appends to each attribute's message array and changes no other attribute's messages. |
| Validation.Only | EMongoEmbeddedDocument.php:387 | Restricting the rule results to the requested attributes keeps exactly the entries of those attributes. |
| Validation.MessagesOnly | EMongoEmbeddedDocument.php:387 | After restriction, a requested attribute keeps all its messages and any other attribute has none. |
| EmbeddedDocument.Defaults | EMongoEmbeddedDocument.php:53-61 | A fresh instance has exactly the declared public properties, each holding its declared default. |
| EmbeddedDocument.AssignAllShape | EMongoEmbeddedDocument.php:195 | Bulk assignment never adds or removes a property or a soft key. Soft keys stay distinct, and a property that no field names keeps its value. |
| EmbeddedDocument.Doc.constructor | EMongoEmbeddedDocument.php:53-61 | Sets the scenario, the defaults and no owner, then runs the embedded initialisation. Its slot store and the cache follow the rule of `InitEmbeddedDocuments`. |
| EmbeddedDocument.Doc.InitEmbeddedDocuments | EMongoEmbeddedDocument.php:75-84 | Nothing is allocated when `hasEmbeddedDocuments()` is false (no declarations and no cached configuration) or the hook vetoes. Otherwise the store becomes empty and the configuration is cached. An already-cached configuration is never changed. |
| EmbeddedDocument.Doc.Wakeup | EMongoEmbeddedDocument.php:447-456 | Caches the class configuration when it is unset and leaves an existing entry alone. Afterwards `hasEmbeddedDocuments()` is true, even for a class that declares no embedded documents. |
| ClassRegistry.Registry.HasEmbeddedDocuments | EMongoEmbeddedDocument.php:251-258 | True for every class that declares embedded documents, and for every class whose configuration is cached even when it declares none. False only for an uncached class that declares none. |
| ClassRegistry.Registry.HasEmbeddedDocumentsStays | EMongoEmbeddedDocument.php:81-82 | The cache only gains entries, so once `hasEmbeddedDocuments()` holds for a class it keeps holding. |
| EmbeddedDocument.Doc.SoftAttributeNames | EMongoSoftEmbeddedDocument.php:126-129 | `array_keys` of the soft attributes: one name per soft entry, in array order. |
| EmbeddedDocument.Doc.GetOwner | EMongoEmbeddedDocument.php:345-348 | Returns the stored back-reference, which `SetOwner` and slot creation write. |
| EmbeddedDocument.Doc.SetOwner | EMongoEmbeddedDocument.php:345-359 | Only the back-reference changes, and `GetOwner` then returns the new owner. |
| EmbeddedDocument.Doc.Read | EMongoEmbeddedDocument.php:164-178 | A property or soft key (soft first, even when it holds null) returns its value and changes nothing, the cached class configurations included. Whether a name is embedded is decided by the configuration cached before the read. For an embedded name with an empty slot, exactly one fresh document is created, in the declared class and the parent's scenario, owned by the parent, and stored in the slot. The parent's footprint grows by that document alone, and the document's own store is empty exactly when its class has embedded documents and its hook allows the initialisation (null otherwise), as the constructor sets it; the cache changes exactly as that constructor changes it, and in no other case. A filled slot returns its document. When every class is well formed, slots with disjoint footprints (`Tree()`) stay so. A null store raises. An unknown name raises and changes nothing: no configuration is cached on the way. |
| EmbeddedDocument.Doc.Isset | EMongoEmbeddedDocument.php:208-215 | Only a property, a soft key or an embedded name the accessors serve can be set. A soft key is set even while it holds null (EMongoSoftEmbeddedDocument.php:64-71). A property is set exactly when it is not null. |
| EmbeddedDocument.Doc.IssetSlot | EMongoEmbeddedDocument.php:208-215 | For an embedded name that is not shadowed, with a slot store, `isset()` holds exactly when the slot holds a document. Exactly then the name's entry in `toArray()` is not null. |
| EmbeddedDocument.Doc.ReadTwice | EMongoEmbeddedDocument.php:166-174 | A second read returns the same nested document instance as the first. |
| EmbeddedDocument.Doc.Assign | EMongoEmbeddedDocument.php:195 | Bulk assignment is the field-by-field `AssignAll`. It keeps the key sets and the class invariants of properties and soft attributes. |
| EmbeddedDocument.Doc.WriteSlot | EMongoEmbeddedDocument.php:187-196 | An array write reuses the existing slot document and assigns onto it, leaving the slots, the footprint and the cached configurations as they were. An empty slot first gets one fresh document (declared class, parent's scenario, owned by the parent, no errors, a store as the constructor sets it, its footprint only itself), which then receives the array onto its defaults; the parent's footprint grows by that document alone, and the cache changes only as that document's constructor changes it. A null store raises and changes no cache. When every class is well formed, `Tree()` is kept. |
| EmbeddedDocument.Doc.Write | EMongoEmbeddedDocument.php:183-202 | A property is written directly. A soft key updates only that soft entry. An embedded name given an array raises on a null store, bulk-assigns the array onto an existing slot document, or first creates one fresh document (declared class, parent's scenario, owned by the parent, no errors) and assigns onto its defaults. The new document's store and footprint are those the constructor gives it, the parent's footprint grows by it alone, and the cache changes only as that constructor changes it. Outside the array write to an embedded name, the slots, the footprint, the slot document of `name` and the cached configurations stay as they were; given any other value it changes nothing. Any other name raises and changes nothing. When every class is well formed, `Tree()` is kept. |
| EmbeddedDocument.Doc.WriteDocument | EMongoEmbeddedDocument.php:183-202 | A document written to an embedded name replaces the slot as it is, and the parent's footprint grows by the written document's footprint. Its owner is not set. A property or soft key holds it as an opaque object. A null store and an unknown name raise. Outside the successful slot write, the slots and the footprint stay as they were. When the written document fits the slot (disjoint from the other slots, both trees), `Tree()` is kept. |
| EmbeddedDocument.Doc.Unset | EMongoSoftEmbeddedDocument.php:78-85 | A soft key is removed, the other soft keys keep their order, and the name is then absent from `getSoftAttributeNames()`. Another name is handed on. |
| EmbeddedDocument.Doc.AttributeNames | EMongoSoftEmbeddedDocument.php:93-98 | Returns the soft keys followed by the cached class names, or null when the class names are null. |
| EmbeddedDocument.Doc.ConvertFromEntries | EMongoEmbeddedDocument.php:321-336 | The conversion loop gives every remaining name its entry and leaves all other keys as it found them. |
| EmbeddedDocument.Doc.ConvertedEntries | EMongoEmbeddedDocument.php:319-337 | Every attribute name is a key of `toArray()`, and no other key appears. Unless a non-null soft value overrides it, an empty slot gives null, a filled slot gives its document's own conversion, and a property gives its value. A soft key gives its soft value, null included. |
| EmbeddedDocument.Doc.ToArray | EMongoEmbeddedDocument.php:298-308 | The result equals the specification `Converted()`. A vetoed before-hook gives the empty array. No slot is created. |
| EmbeddedDocument.Doc.EntryToArray | EMongoEmbeddedDocument.php:324-333 | One loop step equals `EntryFor`. A declared name gives its slot's conversion or null, and any other name gives the magic read. |
| EmbeddedDocument.Doc.BaseToArray | EMongoEmbeddedDocument.php:319-337 | The inherited conversion equals `BaseConverted()`, and a null name list gives the empty array. |
| EmbeddedDocument.Doc.ConvertNames | EMongoEmbeddedDocument.php:321-336 | The loop over the names equals `ConvertFrom`, and it stops at the first raised error. |
| EmbeddedDocument.Doc.ReachesInRepr | EMongoEmbeddedDocument.php:368-372 | Every document that scenario propagation visits lies in the footprint. |
| EmbeddedDocument.Doc.ReachedSlots | EMongoEmbeddedDocument.php:368-372 | The documents visited from the slots are exactly the visited documents other than the document itself. |
| EmbeddedDocument.Doc.SetScenario | EMongoEmbeddedDocument.php:366-374 | Afterwards every document that propagation visits has the new scenario, even one shared between slots. Every other document in the footprint keeps its scenario. |
| EmbeddedDocument.Doc.SetSlotsScenario | EMongoEmbeddedDocument.php:368-372 | The documents visited from the filled slots take the new scenario. The document's own scenario and every unvisited document's scenario are unchanged. |
| EmbeddedDocument.Doc.SetEachSlotScenario | EMongoEmbeddedDocument.php:370-371 | For the given slot keys, every document reached from one of them takes the new scenario. A document reached from none of them keeps its scenario. |
| EmbeddedDocument.Doc.Validate | EMongoEmbeddedDocument.php:385-403 | It succeeds exactly when every requested, filled slot can be read through the accessor, recursively (`Validatable`). The new store is then exactly `ValidatedErrors`: the old errors (or none when clearing), the rule results for the requested attributes, then each requested, filled slot's post-validation errors in declaration order. Each such slot's document itself ends with the store its own `validate(null, $clearErrors)` leaves (`ValidatedErrors(None, clear)` from the state before the call). The result is true exactly when the store is empty. A null store with declared names raises. Documents outside the requested slots' footprints keep their errors. |
| EmbeddedDocument.Doc.ValidateSlots | EMongoEmbeddedDocument.php:388-400 | The store becomes the errors it had followed by `SlotsValidated` over the declared names, and each requested, filled slot's document ends with its own `ValidatedErrors(None, clear)`. The result is true exactly when the store is then empty. A null store raises when names are declared. Only documents inside the requested slots' footprints change. |
| EmbeddedDocument.Doc.ValidateEach | EMongoEmbeddedDocument.php:389-399 | The `foreach` over the declared names, written as recursion: the store gains `SlotsValidated(names)` and the answer is whether that part is empty. The document of each requested, filled slot named in `names` ends with its own `ValidatedErrors(None, clear)`. Documents outside the visited slots keep their errors. |
| EmbeddedDocument.Doc.ValidateSlot | EMongoEmbeddedDocument.php:391-398 | One loop step: an empty or unrequested slot adds nothing. A slot the accessor does not serve raises. Otherwise its document ends with the store its own validation leaves (`ValidatedErrors(None, clear)` from the state before the step), and that store is appended. The documents of the other slots keep their errors, and nothing outside that document's footprint changes. |
| EmbeddedDocument.Doc.SlotOutside | EMongoEmbeddedDocument.php:390-399 | In a tree, one slot's footprint is disjoint from the footprints of the other slots. |
| EmbeddedDocument.Doc.OtherSlotsValidated | EMongoEmbeddedDocument.php:390-399 | Validating the earlier slots leaves what validating a later slot would add unchanged, including what its document's own validation leaves. |
| EmbeddedDocument.Doc.OwnErrorsApart | EMongoEmbeddedDocument.php:387-388 | Rewriting the parent's own store (the base validation) leaves what validating each slot document would leave unchanged. |
| EmbeddedDocument.Doc.SelectedSlotRuleErrors | EMongoEmbeddedDocument.php:390-400 | A requested, filled slot whose document breaks one of its rules makes the parent's validation report errors, so `validate()` answers false. |
| EmbeddedDocument.Doc.SlotsValidatedHas | EMongoEmbeddedDocument.php:389-399 | A requested, filled slot whose document breaks one of its rules makes the slots' contribution non-empty. |
| EmbeddedDocument.Doc.CleanValidation | EMongoEmbeddedDocument.php:385-403 | When no rule anywhere in the tree reports a problem, a clearing validation leaves an empty store, so `validate()` answers true. |
| EmbeddedDocument.Doc.SlotsClean | EMongoEmbeddedDocument.php:390-399 | Slots whose documents break no rule contribute no message. |
| EmbeddedDocument.Doc.CollectFromEntries | EMongoEmbeddedDocument.php:418-429 | The collection loop gives each remaining name its value and leaves other keys alone. |
| EmbeddedDocument.Doc.AttributesViewEntries | EMongoEmbeddedDocument.php:414-441 | Without a name list, every attribute name is a key holding what a read yields, an empty slot gives null, and no other key appears. With a name list, the keys are exactly the requested names, and a name that is not an attribute gives null. |
| EmbeddedDocument.Doc.GetAttributes | EMongoEmbeddedDocument.php:414-441 | The result equals `AttributesView`. The method changes no slot. |
| EmbeddedDocument.SelectFromEntries | EMongoEmbeddedDocument.php:431-437 | The selection gives each requested name its collected value, or null, and leaves other keys alone. |
| EmbeddedDocument.SelectNames | EMongoEmbeddedDocument.php:431-437 | The selection loop equals `Select`. |
| DynamicDocument.DynamicDoc.InitEmbeddedDocuments | EMongoDynamicDocument.php:13-22 | It returns false and changes nothing without declarations or when the hook vetoes. Otherwise it allocates an empty store and returns null. The per-class caches are never written. |
| DynamicDocument.DynamicDoc.HasEmbeddedDocuments | EMongoDynamicDocument.php:50-53 | True exactly when the current declarations name some embedded document. It reads only those declarations, never the per-class cache. |
| DynamicDocument.DynamicDoc.HasEmbeddedDocument | EMongoDynamicDocument.php:31-42 | True exactly when the name is a key of the current declarations. A store is allocated only when there are declarations and none exists yet. An existing store is never replaced. |
| DynamicDocument.DynamicDoc.HasEmbeddedDocumentTwice | EMongoDynamicDocument.php:31-42 | A repeated query gives the same answer and leaves the store as the first query left it. |
| MongoValidator.MatchesHex24AsWritten | extra/EMongoValidator.php:128 | PCRE without the D modifier accepts exactly 24 hex digits, optionally followed by a single final newline. |
| MongoValidator.MatchesHex24 | extra/EMongoValidator.php:128 | The strictly anchored pattern accepts exactly 24 hex digits. |
| MongoValidator.IsMongoIdAsWritten | extra/EMongoValidator.php:125-129 | `isMongoId()` as written accepts an identifier object when `instance` is set. It also accepts a scalar whose text is exactly 24 hex digits, or 25 characters of which the first 24 are hex digits and the last is a newline. |
| MongoValidator.IsMongoId | extra/EMongoValidator.php:125-129 | True exactly when `instance` is set and the value is an identifier object, or the value is a scalar whose text is exactly 24 hex digits. |
| MongoValidator.NoScalarNumberIsHex24 | extra/EMongoValidator.php:128 | A boolean or 64-bit integer never has the text of an identifier, so only strings qualify. |
| MongoValidator.TrailingNewlineAccepted | extra/EMongoValidator.php:125-129 | The as-written check accepts 24 hex digits followed by a newline, which the intended check rejects. |
| MongoValidator.AsWrittenAcceptsAtMostNewline | extra/EMongoValidator.php:125-129 | The as-written check differs from the intended one only on identifier texts with one newline appended. |
| MongoValidator.Substitute | extra/EMongoValidator.php:104-107 | A message without the `{attribute}` placeholder is reported unchanged. |
| MongoValidator.SubstituteLeading | extra/EMongoValidator.php:69-95 | A default message (placeholder followed by plain text) reads as the attribute's label followed by that text. |
| MongoValidator.Filtered | extra/EMongoValidator.php:72-97 | Conversion only happens with filtering on and a non-empty value, and an unknown type converts nothing. For `id`, a value changes exactly when filtering is on and it is a 24-digit hex text, which becomes that identifier. For `date`, the result is a date exactly when the value already was one or a conversion applies. The conversions are tried in order: a number first (even one `strtotime()` would also read), then a `DateTime` by its timestamp, then `strtotime()` as the last resort. |
| MongoValidator.EMongoValidator.constructor | extra/EMongoValidator.php:38-51 | The defaults are type `id`, empty allowed, filtering on and no custom message. |
| MongoValidator.EMongoValidator.Check | extra/EMongoValidator.php:64-102 | An empty value is never checked or converted, and is reported only when empty is not allowed. An unknown type raises for non-empty values only. For `id`, no message is reported exactly when the converted value is an identifier object. For `date`, no message is reported exactly when it is a date object. The value is that of `Filtered`. |
| MongoValidator.EMongoValidator.ValidateAttribute | extra/EMongoValidator.php:62-112 | A missing attribute raises, and a raise changes nothing. Either one message is appended (the custom one if set, otherwise the default for the case), with the label substituted and the attribute untouched, or the attribute becomes its converted value. No other attribute changes, and without filtering nothing is written. An unknown type raises exactly for a present, non-empty value, and every other present attribute is handled without raising. For `id` (`date`) the error store is unchanged exactly when the value is an allowed empty value, or `Filtered` turns it into an identifier (a date). |

## Left out

- `CModel`/`CComponent` base behaviour is outside the model:
  - events and behaviours;
  - `parent::__unset` of a name that is not a soft key;
  - the rule machinery of `parent::validate`.

  The rules' verdict on a document is the given log `ruleErrors`. The base validation is modelled as clearing the store when asked, then appending that log restricted to the requested attributes.
- Doc.Validate: `afterValidate()` (EMongoEmbeddedDocument.php:220-230) is not modelled. The base `validate()` runs it after the rules. It validates each slot document a second time and adds the errors of invalid ones, so in PHP a slot's messages can be reported twice. The model states the override's own loop only.
- Doc.Validate: stated for documents whose slots do not share documents (`Tree()`). With a document shared between two slots, PHP would validate it twice. The model does not cover that case.
- Doc.ValidateSlots: the slot document is taken from the store directly. A soft attribute with the same name as an embedded name would shadow it in PHP's `$this->$attribute`. Class declarations are assumed not to give a soft attribute an embedded name.
- Doc.Assign: `$doc->attributes = $array` is `CModel::setAttributes` with only safe attributes taken. The safe-attribute filter of the current scenario is not modelled: every key is treated as safe. An embedded name in the array is ignored. In PHP it goes through `__set` and creates or fills a slot of the slot document.
- Doc.Read, Doc.Write, Doc.Isset: the `CComponent` getters and setters (such as `$doc->scenario` or `$doc->owner`) are not resolved. Every name that is not a property, a soft key or a served embedded name raises `UndefinedProperty` (on a read or write) or is not set.
- Doc.WriteDocument, Doc.Adopt: require that the adopted document does not reach the parent. PHP accepts such a cyclic assignment, after which `toArray()`, `setScenario()` and `validate()` recurse without end. The model only covers acyclic documents.
- `Value` has no floating-point case. In PHP a float is numeric for the validator's `date` branch, and `empty(0.0)` is true.
- The event hooks `beforeEmbeddedDocsInit`/`beforeToArray` are per-class boolean answers. The after-hooks only notify observers and are left out.
- `ReflectionClass`: each class's public non-static properties are given, with their defaults, in declaration order.
- The foreign runtime is abstracted. `MongoId`, `MongoDate` and `DateTime` are abstract values. `is_numeric()`, `strtotime()` and `getAttributeLabel()` are functions supplied by a `Runtime` value, and `strtotime()` is assumed to give the same answer both times the rule calls it.
- `Yii::t` message translation is the identity. The `CException` thrown for an unknown type is the error result `InvalidType`.
- Object identity in the validator's write-back (`!==`) is compared by value. A freshly converted object that equals the stored one by value is therefore not written back.
- MongoValidator.NoScalarNumberIsHex24: requires the integer to fit in 64 bits. PHP integers do; the model's integers are unbounded.
- The whole of `EMongoDocument` (persistence, the parent of the dynamic document) is not part of this model. `DynamicDoc` therefore keeps only the slot-store behaviour and the declarations, and does not model reads and writes through slots.
- The static caches are fields of one registry object used by one thread. Process-wide sharing is not modelled.
- `__wakeup()` is modelled only as filling the configuration cache. PHP unserialisation itself and the `init()` hook are out of scope.

## Findings

| source | as written | input that shows it | evidently intended | confidence | as-written member | corrected member |
|---|---|---|---|---|---|---|
| extra/EMongoValidator.php:125-129 | `isMongoId()` matches `/^[a-fA-F0-9]{24}$/` without the D modifier, so `$` also matches before a final newline | the string "0123456789abcdef01234567\n" (24 hex digits and a newline) is accepted | accept exactly 24 hexadecimal characters and nothing else, as `validateAttribute()` does with its `strlen` guard | not executed | MongoValidator.TrailingNewlineAccepted | MongoValidator.IsMongoId |

=== FILE: class_registry.dfy ===
/**
 * The per-class side of the document layer: what each concrete document
 * class declares, and the two process-wide caches keyed by class name
 * (`$_attributes` and `$_embeddedConfig` of EMongoEmbeddedDocument.php).
 */
module ClassRegistry {
  import opened PhpValues
  import opened PhpArrays

  /** A concrete document class, by name. */
  type ClassId = string

  /** What a concrete document class declares. */
  datatype ClassDecl = ClassDecl(
    props: seq<(string, Value)>,      // public non-static properties with their defaults, in declaration order
    embedded: seq<(string, ClassId)>, // embeddedDocuments(): attribute name to document class
    soft: seq<(string, Value)>,       // the initial soft-attribute array (empty unless the class has soft attributes)
    allowEmbeddedInit: bool,          // the answer of the before-embedded-init hook
    allowToArray: bool)               // the answer of the before-to-array hook

  /**
   * A class declaration PHP would accept: keys are unique, and a plain property
   * is neither an embedded name nor a soft attribute (PHP reads a public property
   * directly, without the magic accessors).
   */
  predicate WellFormed(d: ClassDecl)
  {
    && UniqueKeys(d.props) && UniqueKeys(d.embedded) && UniqueKeys(d.soft)
    && forall n :: n in Keys(d.props) ==> n !in Keys(d.embedded) && n !in Keys(d.soft)
  }

  /** Every class named as an embedded type exists. */
  predicate ClosedWorld(classes: map<ClassId, ClassDecl>)
  {
    forall c :: c in classes ==>
      forall i :: 0 <= i < |classes[c].embedded| ==> classes[c].embedded[i].1 in classes
  }

  /** Every class of the program is declared as PHP would accept it. */
  predicate WellFormedWorld(classes: map<ClassId, ClassDecl>)
  {
    forall c :: c in classes ==> WellFormed(classes[c])
  }

  /** The document classes of a program. */
  type World = m: map<ClassId, ClassDecl> | ClosedWorld(m) witness map[]

  /** The public properties followed by the embedded names. */
  function DeclaredNames(d: ClassDecl): seq<string>
  {
    Keys(d.props) + Keys(d.embedded)
  }

  class Registry {
    /** The program's document classes. */
    const classes: World
    /** `self::$_attributes`: attribute names per class, computed once. */
    var attributes: map<ClassId, seq<string>>
    /** `self::$_embeddedConfig`: the cached result of embeddedDocuments() per class. */
    var embeddedConfig: map<ClassId, seq<(string, ClassId)>>

    ghost predicate Valid()
      reads this
    {
      && (forall c :: c in embeddedConfig ==> c in classes && embeddedConfig[c] == classes[c].embedded)
      && (forall c :: c in attributes ==>
            && c in classes
            && attributes[c] == DeclaredNames(classes[c])
            && (c in embeddedConfig || classes[c].embedded == []))
    }

    constructor (classes: World)
      ensures Valid() && this.classes == classes
      ensures attributes == map[] && embeddedConfig == map[]
    {
      this.classes := classes;
      attributes := map[];
      embeddedConfig := map[];
    }

    /** `hasEmbeddedDocuments()` of an instance of class `c`. */
    predicate HasEmbeddedDocuments(c: ClassId): (b: bool)
      reads this`embeddedConfig
      requires c in classes
      // a class that declares embedded documents always has them ...
      ensures classes[c].embedded != [] ==> b
      // ... and a cached class has them even when it declares none
      ensures c in embeddedConfig ==> b
      ensures b ==> c in embeddedConfig || classes[c].embedded != []
    {
      c in embeddedConfig || |classes[c].embedded| > 0
    }

    /**
     * No operation removes a cache entry, so once `hasEmbeddedDocuments()` holds
     * for a class it keeps holding.
     */
    twostate lemma HasEmbeddedDocumentsStays(c: ClassId)
      requires c in classes
      requires old(embeddedConfig).Keys <= embeddedConfig.Keys
      ensures old(HasEmbeddedDocuments(c)) ==> HasEmbeddedDocuments(c)
    {
    }

    /**
     * The guard of the magic accessors: `hasEmbeddedDocuments()` and
     * `isset(self::$_embeddedConfig[class][name])`.
     */
    predicate IsEmbeddedName(c: ClassId, name: string)
      reads this`embeddedConfig
    {
      c in embeddedConfig && name in Keys(embeddedConfig[c])
    }

    /** The class declared for embedded name `name` of class `c`. */
    function EmbeddedClass(c: ClassId, name: string): (t: ClassId)
      requires c in classes && name in Keys(classes[c].embedded)
      ensures t in classes
    {
      var t := Lookup(classes[c].embedded, name).value;
      LookupIsEntry(classes[c].embedded, name);
      t
    }

    /**
     * What attributeNames() yields for class `c`: the public properties and the
     * embedded names, or PHP's null when the class declares embedded documents but
     * its configuration has not been cached (`array_merge` of an array and null).
     */
    function ClassAttributeNames(c: ClassId): Option<seq<string>>
      reads this`embeddedConfig
      requires c in classes
    {
      if c in embeddedConfig || classes[c].embedded == [] then Some(DeclaredNames(classes[c])) else None
    }

    /** `attributeNames()` of EMongoEmbeddedDocument, with its per-class cache. */
    method AttributeNames(c: ClassId) returns (names: Option<seq<string>>)
      requires Valid() && c in classes
      modifies this`attributes
      ensures Valid()
      ensures names == ClassAttributeNames(c)
      ensures c in old(attributes) ==> names == Some(old(attributes)[c])
      ensures attributes == if names.Some? then old(attributes)[c := names.value] else old(attributes)
    {
      if c !in attributes {
        // reflection: the public non-static properties, in declaration order
        var ns := Keys(classes[c].props);
        if HasEmbeddedDocuments(c) {
          if c !in embeddedConfig {
            // array_keys of an unset cache entry is null, array_merge then yields null,
            // and isset() treats the stored null as "not cached"
            return None;
          }
          ns := ns + Keys(embeddedConfig[c]);
        } else {
          assert Keys(classes[c].embedded) == [];
          assert ns == ns + Keys(classes[c].embedded);
        }
        assert ns == DeclaredNames(classes[c]);
        attributes := attributes[c := ns];
      }
      names := Some(attributes[c]);
    }

    /** Two calls in a row answer with the identical sequence. */
    method AttributeNamesTwice(c: ClassId) returns (first: Option<seq<string>>, second: Option<seq<string>>)
      requires Valid() && c in classes
      modifies this`attributes
      ensures Valid()
      ensures first == second
      ensures first.Some? ==> c in attributes && attributes[c] == first.value
    {
      first := AttributeNames(c);
      second := AttributeNames(c);
    }

    /**
     * Caches embeddedDocuments() for class `c` unless an entry is already there:
     * the entry is written at most once and never changed afterwards.
     */
    method RecordEmbeddedConfig(c: ClassId)
      requires Valid() && c in classes
      modifies this`embeddedConfig
      ensures Valid()
      ensures c in embeddedConfig && embeddedConfig[c] == classes[c].embedded
      ensures c in old(embeddedConfig) ==> embeddedConfig == old(embeddedConfig)
      ensures embeddedConfig == old(embeddedConfig)[c := classes[c].embedded]
    {
      if c !in embeddedConfig {
        embeddedConfig := embeddedConfig[c := classes[c].embedded];
      }
    }
  }
}

=== FILE: dynamic_document.dfy ===
/**
 * EMongoDynamicDocument.php: a document whose embedded-document declarations
 * may change over its lifetime (the subclass computes embeddedDocuments() from
 * its own state). It neither consults nor fills the per-class configuration
 * cache, and it allocates its slot store late when declarations appear.
 */
module DynamicDocument {
  import opened PhpValues
  import opened PhpArrays
  import opened ClassRegistry
  import opened EmbeddedDocument

  class DynamicDoc {
    /** The process-wide per-class caches, which this document leaves alone. */
    const reg: Registry
    /** The answer of the before-embedded-init hook. */
    const allowEmbeddedInit: bool
    /** What embeddedDocuments() answers at the moment. */
    var declared: seq<(string, ClassId)>
    /** `$_embedded`: absent, or the slots from embedded name to nested document. */
    var store: Option<map<string, Doc>>

    constructor (reg: Registry, allowEmbeddedInit: bool, declared: seq<(string, ClassId)>)
      ensures this.reg == reg && this.allowEmbeddedInit == allowEmbeddedInit
      ensures this.declared == declared && store == None
    {
      this.reg := reg;
      this.allowEmbeddedInit := allowEmbeddedInit;
      this.declared := declared;
      store := None;
    }

    /** hasEmbeddedDocuments(): a count over the current declarations, never the cache. */
    predicate HasEmbeddedDocuments(): (b: bool)
      reads this`declared
      ensures b <==> Keys(declared) != []
    {
      |declared| > 0
    }

    /**
     * initEmbeddedDocuments(): without declarations, or when the before hook
     * vetoes, PHP returns false and nothing changes; otherwise a fresh empty slot
     * store replaces whatever was there and PHP returns null. The configuration
     * cache is not written.
     */
    method InitEmbeddedDocuments() returns (r: Option<bool>)
      modifies this`store
      ensures !HasEmbeddedDocuments() || !allowEmbeddedInit ==> r == Some(false) && store == old(store)
      ensures HasEmbeddedDocuments() && allowEmbeddedInit ==> r == None && store == Some(map[])
      ensures reg.embeddedConfig == old(reg.embeddedConfig) && reg.attributes == old(reg.attributes)
    {
      if !HasEmbeddedDocuments() || !allowEmbeddedInit {
        return Some(false);
      }
      store := Some(map[]);
      // afterEmbeddedDocsInit(): observers only
      return None;
    }

    /**
     * hasEmbeddedDocument($name): whether `name` is currently declared. When
     * declarations exist but no slot store does, initialisation is attempted
     * first; an existing store is never replaced.
     */
    method HasEmbeddedDocument(name: string) returns (b: bool)
      modifies this`store
      ensures b <==> name in Keys(declared)
      ensures store == if declared != [] && old(store).None? && allowEmbeddedInit then Some(map[]) else old(store)
      ensures old(store).Some? ==> store == old(store)
    {
      var docs := declared;
      if docs != [] && store.None? {
        var _ := InitEmbeddedDocuments();
      }
      b := Lookup(docs, name).Some?;
    }

    /** A second query right after the first answers the same and changes nothing more. */
    method HasEmbeddedDocumentTwice(name: string) returns (first: bool, second: bool)
      modifies this`store
      ensures first == second
      ensures store == if declared != [] && old(store).None? && allowEmbeddedInit then Some(map[]) else old(store)
    {
      first := HasEmbeddedDocument(name);
      ghost var afterFirst := store;
      second := HasEmbeddedDocument(name);
      assert store == afterFirst;
    }
  }
}

=== FILE: embedded_document.dfy ===
/**
 * EMongoEmbeddedDocument.php and the accessors of EMongoSoftEmbeddedDocument.php:
 * a document that declares named slots for nested documents, creates them on
 * first access, and folds them into attribute listing, array conversion and
 * validation. A class without soft attributes has an empty soft-attribute
 * array, so every soft check falls through to the embedded and plain logic.
 */
module EmbeddedDocument {
  import opened PhpValues
  import opened PhpArrays
  import opened ClassRegistry
  import opened SoftAttributes
  import opened Validation

  /** What a magic read yields: a nested document or a plain value. */
  datatype Item = Scalar(value: Value) | Nested(doc: Doc)

  /**
   * One step of validating the slots one after another: the slot `name` comes
   * after the slots named in `before`, under the attribute selection `sub` and
   * the `clear` flag of the pass.
   */
  datatype EachStep = EachStep(name: string, before: seq<string>, sub: Option<seq<string>>, clear: bool)

  /** The property map of a fresh instance: every public property with its default. */
  function Defaults(props: seq<(string, Value)>): (m: map<string, Value>)
    ensures forall p :: p in m <==> p in Keys(props)
    ensures forall p :: p in m ==> Lookup(props, p) == Some(m[p])
  {
    map p | p in Keys(props) :: Lookup(props, p).value
  }

  /**
   * One step of the base model's bulk assignment `$doc->attributes = $array`
   * (`setAttributes` with only safe attributes taken), with every key of the array
   * treated as safe: a soft attribute or a public property takes the value, and
   * any other key, an embedded name included, is ignored.
   */
  function AssignOne(a: map<string, Value>, s: seq<(string, Value)>, k: string, v: Value)
    : (r: (map<string, Value>, seq<(string, Value)>))
  {
    if k in Keys(s) then (a, Put(s, k, v))
    else if k in a then (a[k := v], s)
    else (a, s)
  }

  /** The whole bulk assignment, field by field in array order. */
  function AssignAll(a: map<string, Value>, s: seq<(string, Value)>, fields: seq<(string, Value)>)
    : (r: (map<string, Value>, seq<(string, Value)>))
    decreases |fields|
  {
    if fields == [] then (a, s)
    else
      var next := AssignOne(a, s, fields[0].0, fields[0].1);
      AssignAll(next.0, next.1, fields[1..])
  }

  /**
   * The bulk assignment never adds or removes a property or a soft attribute:
   * unknown keys are ignored, and a property no field names keeps its value.
   */
  lemma {:induction false} AssignAllShape(a: map<string, Value>, s: seq<(string, Value)>, fields: seq<(string, Value)>)
    ensures AssignAll(a, s, fields).0.Keys == a.Keys
    ensures Keys(AssignAll(a, s, fields).1) == Keys(s)
    ensures UniqueKeys(s) ==> UniqueKeys(AssignAll(a, s, fields).1)
    ensures forall k :: k in a && k !in Keys(fields) ==> AssignAll(a, s, fields).0[k] == a[k]
    decreases |fields|
  {
    if fields != [] {
      var next := AssignOne(a, s, fields[0].0, fields[0].1);
      AssignAllShape(next.0, next.1, fields[1..]);
      assert Keys(fields) == [fields[0].0] + Keys(fields[1..]);
    }
  }

  class Doc {
    /** The process-wide per-class caches and the program's class declarations. */
    const reg: Registry
    /** `get_class($this)`. */
    const cls: ClassId
    var scenario: string
    /** The non-owning back-reference to the parent document. */
    var owner: Doc?
    /** `$_embedded`: absent, or the slots from embedded name to nested document. */
    var store: Option<map<string, Doc>>
    /** The public properties and their values. */
    var attrs: map<string, Value>
    /** `$softAttributes`. */
    var soft: seq<(string, Value)>
    /** The base model's error store. */
    var errors: Errors
    /**
     * The verdict of this document's own validation rules, per attribute, as supplied
     * for its current values: writes and assignments do not recompute it.
     */
    var ruleErrors: Errors
    /** This document and every document it owns through its slots. */
    ghost var Repr: set<Doc>

    function Decl(): ClassDecl
      requires cls in reg.classes
    {
      reg.classes[cls]
    }

    /** The properties are exactly the class's public properties. */
    ghost predicate AttrsValid()
      reads this`attrs
    {
      cls in reg.classes && forall p :: p in attrs <==> p in Keys(Decl().props)
    }

    /** The soft attributes form a PHP array whose keys the class declares. */
    ghost predicate SoftValid()
      reads this`soft
    {
      cls in reg.classes && UniqueKeys(soft) && forall k :: k in Keys(soft) ==> k in Keys(Decl().soft)
    }

    /**
     * The document graph below this one: every slot holds a valid document of the
     * same registry whose footprint lies inside this one's and excludes this
     * document. Slots may share a document, as PHP object handles can, but no
     * document reaches itself.
     */
    ghost predicate Valid()
      reads this`Repr, Repr`Repr, Repr`store
      decreases Repr
    {
      && this in Repr
      && cls in reg.classes
      && (store.Some? ==>
            forall k :: k in store.value ==>
              && store.value[k] in Repr
              && store.value[k].Repr <= Repr
              && this !in store.value[k].Repr
              && store.value[k].reg == reg
              && store.value[k].Valid())
    }

    /** The state of a freshly constructed document of this class in scenario `s`. */
    ghost predicate Initial(s: string)
      reads this`scenario, this`attrs, this`soft, this`errors, this`ruleErrors
    {
      && cls in reg.classes
      && scenario == s
      && attrs == Defaults(Decl().props) && soft == Decl().soft
      && errors == [] && ruleErrors == []
    }

    /** Construction: scenario, property defaults, soft attributes, then initEmbeddedDocuments(). */
    constructor (reg: Registry, cls: ClassId, scenario: string)
      requires reg.Valid() && cls in reg.classes
      modifies reg`embeddedConfig
      ensures Valid() && reg.Valid()
      ensures fresh(Repr) && Repr == {this}
      ensures this.reg == reg && this.cls == cls && Initial(scenario) && owner == null
      ensures store == if old(reg.HasEmbeddedDocuments(cls)) && Decl().allowEmbeddedInit
                       then Some(map[]) else None
      ensures reg.embeddedConfig == if old(reg.HasEmbeddedDocuments(cls)) && Decl().allowEmbeddedInit
                                    then old(reg.embeddedConfig)[cls := Decl().embedded]
                                    else old(reg.embeddedConfig)
    {
      this.reg := reg;
      this.cls := cls;
      this.scenario := scenario;
      owner := null;
      store := None;
      attrs := Defaults(reg.classes[cls].props);
      soft := reg.classes[cls].soft;
      errors := [];
      ruleErrors := [];
      Repr := {this};
      new;
      var _ := InitEmbeddedDocuments();
    }

    /**
     * initEmbeddedDocuments(): nothing happens when the class declares no embedded
     * documents or the before hook vetoes; otherwise an empty slot store is
     * allocated and the class configuration is cached unless already cached.
     */
    method InitEmbeddedDocuments() returns (done: bool)
      requires Valid() && reg.Valid()
      modifies this`store, reg`embeddedConfig
      ensures Valid() && reg.Valid()
      ensures done == (old(reg.HasEmbeddedDocuments(cls)) && Decl().allowEmbeddedInit)
      ensures store == if done then Some(map[]) else old(store)
      ensures reg.embeddedConfig == if done then old(reg.embeddedConfig)[cls := Decl().embedded]
                                    else old(reg.embeddedConfig)
      ensures cls in old(reg.embeddedConfig) ==> reg.embeddedConfig == old(reg.embeddedConfig)
    {
      if !reg.HasEmbeddedDocuments(cls) || !Decl().allowEmbeddedInit {
        return false;
      }
      store := Some(map[]);
      reg.RecordEmbeddedConfig(cls);
      // afterEmbeddedDocsInit(): observers only
      return true;
    }

    /** `__wakeup()`: caches the class configuration if it is not cached yet. */
    method Wakeup()
      requires reg.Valid() && cls in reg.classes
      modifies reg`embeddedConfig
      ensures reg.Valid()
      ensures reg.embeddedConfig == old(reg.embeddedConfig)[cls := Decl().embedded]
      ensures cls in old(reg.embeddedConfig) ==> reg.embeddedConfig == old(reg.embeddedConfig)
      ensures reg.HasEmbeddedDocuments(cls)
    {
      reg.RecordEmbeddedConfig(cls);
    }

    /** The keys of the soft-attribute array. */
    function SoftAttributeNames(): (ns: seq<string>)
      reads this`soft
      ensures |ns| == |soft| && forall i :: 0 <= i < |soft| ==> ns[i] == soft[i].0
    {
      KeysIndexed(soft);
      Keys(soft)
    }

    /** The non-owning back-reference. */
    function GetOwner(): (o: Doc?)
      reads this`owner
      ensures o == owner
    {
      owner
    }

    /** setOwner(): only the back-reference changes. */
    method SetOwner(o: Doc)
      modifies this`owner
      ensures owner == o && GetOwner() == o
    {
      owner := o;
    }

    /**
     * `isset($doc->name)`: a public property is set when it is not null; any other
     * name goes through the magic accessor, where a soft key is always set (even
     * holding null), an embedded name is set when its slot holds a document, and
     * anything else is not set.
     */
    predicate Isset(name: string): (b: bool)
      reads this`soft, this`store, this`attrs, reg`embeddedConfig
      // only a known name can be set
      ensures b ==> name in attrs || name in Keys(soft) || reg.IsEmbeddedName(cls, name)
      // a soft key is set even while it holds null
      ensures name !in attrs && name in Keys(soft) ==> b
      ensures name in attrs ==> (b <==> attrs[name] != Null)
    {
      if name in attrs then attrs[name] != Null
      else if name in Keys(soft) then true
      else if reg.IsEmbeddedName(cls, name) then store.Some? && name in store.value
      else false
    }

    /**
     * For an embedded name the accessors serve, with a slot store and not shadowed
     * by a property or a soft key, isset() holds exactly when the slot holds a
     * document, and exactly then the conversion of the name is not null.
     */
    lemma IssetSlot(name: string)
      requires Valid() && reg.Valid() && store.Some?
      requires reg.IsEmbeddedName(cls, name) && name !in attrs && name !in Keys(soft)
      ensures Isset(name) <==> name in store.value
      ensures Isset(name) <==> EntryFor(name) != Ok(Null)
    {
      assert name in Keys(Decl().embedded);
    }

    /**
     * Putting `d` into slot `name` keeps the tree shape: this document and `d` are
     * trees, `name` is declared, and `d` shares nothing with the other slots.
     */
    ghost predicate SlotFits(name: string, d: Doc)
      reads this`Repr, Repr`Repr, Repr`store, d`Repr, d.Repr`Repr, d.Repr`store
      requires Valid() && d.Valid()
    {
      && Tree() && d.Tree() && name in Keys(Decl().embedded)
      && (store.Some? ==> forall k :: k in store.value && k != name ==> d.Repr !! store.value[k].Repr)
    }

    /**
     * Puts `d` into slot `name`, replacing what was there. `d` must not reach this
     * document: with a cycle the recursive conversions would never finish.
     */
    method Adopt(name: string, d: Doc)
      requires Valid() && store.Some?
      requires d.Valid() && d.reg == reg && this !in d.Repr
      modifies this`store, this`Repr
      ensures Valid()
      ensures store == Some(old(store.value)[name := d])
      ensures Repr == old(Repr) + d.Repr
      ensures old(SlotFits(name, d)) ==> Tree()
    {
      store := Some(store.value[name := d]);
      Repr := Repr + d.Repr;
    }

    /** A new document of the class declared for `name`, in this document's scenario, owned by it. */
    method NewChild(name: string) returns (c: Doc)
      requires reg.Valid() && cls in reg.classes
      requires reg.IsEmbeddedName(cls, name)
      modifies reg`embeddedConfig
      ensures reg.Valid()
      ensures fresh(c) && c.Valid() && c.Repr == {c}
      ensures c.reg == reg && c.cls == reg.EmbeddedClass(cls, name)
      ensures c.Initial(scenario) && c.owner == this
      ensures c.store == if old(reg.HasEmbeddedDocuments(reg.EmbeddedClass(cls, name))) && c.Decl().allowEmbeddedInit
                         then Some(map[]) else None
      ensures WellFormedWorld(reg.classes) ==> c.Tree()
      ensures reg.embeddedConfig == if c.store.Some? then old(reg.embeddedConfig)[c.cls := c.Decl().embedded]
                                    else old(reg.embeddedConfig)
      ensures old(reg.embeddedConfig).Keys <= reg.embeddedConfig.Keys
    {
      var t := reg.EmbeddedClass(cls, name);
      c := new Doc(reg, t, scenario);
      c.SetOwner(this);
    }

    /** Creates the nested document for `name` and puts it into its slot. */
    method Materialise(name: string) returns (c: Doc)
      requires Valid() && reg.Valid()
      requires reg.IsEmbeddedName(cls, name) && store.Some?
      modifies this`store, this`Repr, reg`embeddedConfig
      ensures Valid() && reg.Valid()
      ensures fresh(c) && Repr == old(Repr) + {c} && c.Repr == {c}
      ensures c.reg == reg && c.cls == reg.EmbeddedClass(cls, name)
      ensures c.Initial(scenario) && c.owner == this
      ensures c.store == if old(reg.HasEmbeddedDocuments(reg.EmbeddedClass(cls, name))) && c.Decl().allowEmbeddedInit
                         then Some(map[]) else None
      ensures store == Some(old(store.value)[name := c])
      ensures old(Tree()) && WellFormedWorld(reg.classes) ==> Tree()
      ensures reg.embeddedConfig == if c.store.Some? then old(reg.embeddedConfig)[c.cls := c.Decl().embedded]
                                    else old(reg.embeddedConfig)
      ensures old(reg.embeddedConfig).Keys <= reg.embeddedConfig.Keys
    {
      ghost var wasTree := Tree();
      c := NewChild(name);
      assert name in Keys(Decl().embedded);
      assert c !in Repr;
      assert forall k :: k in store.value && k != name ==> c.Repr !! store.value[k].Repr;
      assert wasTree ==> Tree();
      assert wasTree && WellFormedWorld(reg.classes) ==> SlotFits(name, c);
      Adopt(name, c);
    }

    /**
     * A read `$doc->name`. Public properties are read directly; any other name
     * goes through the magic accessor: a soft attribute, then an embedded name
     * (whose document is created on first access), then the base component, which
     * rejects an unknown name.
     */
    method Read(name: string) returns (r: Result<Item>)
      requires Valid() && reg.Valid()
      modifies this`store, this`Repr, reg`embeddedConfig
      ensures Valid() && reg.Valid()
      ensures name in attrs ==> r == Ok(Scalar(attrs[name])) && unchanged(this, reg)
      ensures name !in attrs && name in Keys(soft) ==> r == Ok(Scalar(Lookup(soft, name).value)) && unchanged(this, reg)
      ensures name !in attrs && name !in Keys(soft) && old(reg.IsEmbeddedName(cls, name)) ==>
                if old(store).None? then r == Err(NullStore) && unchanged(this, reg)
                else if name in old(store.value) then r == Ok(Nested(old(store.value[name]))) && unchanged(this, reg)
                else r.Ok? && r.value.Nested? && store == Some(old(store.value)[name := r.value.doc])
                     && fresh(r.value.doc) && r.value.doc.cls == reg.EmbeddedClass(cls, name)
                     && r.value.doc.Initial(scenario) && r.value.doc.owner == this
                     && Repr == old(Repr) + {r.value.doc} && r.value.doc.Repr == {r.value.doc}
                     && r.value.doc.store ==
                          (if old(reg.HasEmbeddedDocuments(reg.EmbeddedClass(cls, name))) && r.value.doc.Decl().allowEmbeddedInit
                           then Some(map[]) else None)
                     && reg.embeddedConfig ==
                          (if r.value.doc.store.Some? then old(reg.embeddedConfig)[r.value.doc.cls := r.value.doc.Decl().embedded]
                           else old(reg.embeddedConfig))
      ensures old(Tree()) && WellFormedWorld(reg.classes) ==> Tree()
      ensures name !in attrs && name !in Keys(soft) && !old(reg.IsEmbeddedName(cls, name)) ==>
                r == Err(UndefinedProperty(name)) && unchanged(this, reg)
      ensures r.Err? ==> unchanged(this, reg)
      ensures r.Ok? && r.value.Nested? ==> Isset(name) && store.value[name] == r.value.doc
      ensures old(reg.embeddedConfig).Keys <= reg.embeddedConfig.Keys
    {
      if name in attrs {
        return Ok(Scalar(attrs[name]));
      } else if name in Keys(soft) {
        return Ok(Scalar(Lookup(soft, name).value));
      } else if reg.IsEmbeddedName(cls, name) {
        if store.None? {
          return Err(NullStore);
        }
        if name !in store.value {
          var c := Materialise(name);
        }
        return Ok(Nested(store.value[name]));
      } else {
        return Err(UndefinedProperty(name));
      }
    }

    /** Reading a name again yields the nested document the first read found or created. */
    method ReadTwice(name: string) returns (first: Result<Item>, second: Result<Item>)
      requires Valid() && reg.Valid()
      modifies this`store, this`Repr, reg`embeddedConfig
      ensures Valid() && reg.Valid()
      ensures first.Ok? && first.value.Nested? ==> second == first
    {
      first := Read(name);
      second := Read(name);
    }

    /**
     * The base model's bulk assignment `$doc->attributes = $fields`, field by field,
     * with every key treated as safe: a soft attribute or a public property takes
     * the value, other keys (embedded names among them) are ignored.
     */
    method Assign(fields: seq<(string, Value)>)
      modifies this`attrs, this`soft
      ensures (attrs, soft) == AssignAll(old(attrs), old(soft), fields)
      ensures attrs.Keys == old(attrs).Keys && Keys(soft) == Keys(old(soft))
      ensures old(AttrsValid()) ==> AttrsValid()
      ensures old(SoftValid()) ==> SoftValid()
    {
      AssignAllShape(attrs, soft, fields);
      var i := 0;
      while i < |fields|
        invariant 0 <= i <= |fields|
        invariant AssignAll(attrs, soft, fields[i..]) == AssignAll(old(attrs), old(soft), fields)
      {
        assert fields[i..][1..] == fields[i + 1..];
        var next := AssignOne(attrs, soft, fields[i].0, fields[i].1);
        attrs, soft := next.0, next.1;
        i := i + 1;
      }
    }

    /** The slot document of `name`, as a frame. */
    ghost function SlotDoc(name: string): set<Doc>
      reads this`store
    {
      if store.Some? && name in store.value then {store.value[name]} else {}
    }

    /**
     * The array branch of a write to an embedded name: the slot's document is
     * created first when the slot is empty, then the array is bulk-assigned to it.
     */
    method WriteSlot(name: string, fields: seq<(string, Value)>) returns (r: Result<()>)
      requires Valid() && reg.Valid() && reg.IsEmbeddedName(cls, name)
      modifies this`store, this`Repr, reg`embeddedConfig
      modifies SlotDoc(name)`attrs, SlotDoc(name)`soft
      ensures Valid() && reg.Valid()
      ensures old(store).None? ==> r == Err(NullStore) && unchanged(this`store) && unchanged(reg)
      ensures old(store).Some? && name in old(store.value) ==>
                r == Ok(()) && store == old(store) && Repr == old(Repr) && unchanged(reg) &&
                (store.value[name].attrs, store.value[name].soft) ==
                  AssignAll(old(store.value[name].attrs), old(store.value[name].soft), fields)
      ensures old(store).Some? && name !in old(store.value) ==>
                r == Ok(()) && store.Some? && name in store.value &&
                var c := store.value[name];
                && fresh(c) && store == Some(old(store.value)[name := c])
                && Repr == old(Repr) + {c} && c.Repr == {c}
                && c.cls == reg.EmbeddedClass(cls, name) && c.owner == this
                && c.scenario == scenario && c.errors == []
                && c.store == (if old(reg.HasEmbeddedDocuments(reg.EmbeddedClass(cls, name))) && c.Decl().allowEmbeddedInit
                               then Some(map[]) else None)
                && reg.embeddedConfig == (if c.store.Some? then old(reg.embeddedConfig)[c.cls := c.Decl().embedded]
                                          else old(reg.embeddedConfig))
                && (c.attrs, c.soft) == AssignAll(Defaults(c.Decl().props), c.Decl().soft, fields)
      ensures old(Tree()) && WellFormedWorld(reg.classes) ==> Tree()
    {
      if store.None? {
        return Err(NullStore);
      }
      if name in store.value {
        AssignSlot(name, fields);
        return Ok(());
      }
      ghost var wasTree := Tree() && WellFormedWorld(reg.classes);
      var _ := Materialise(name);
      assert wasTree ==> Tree();
      AssignSlot(name, fields);
      return Ok(());
    }

    /** Bulk-assigns `fields` to the document in slot `name`, touching nothing else. */
    method AssignSlot(name: string, fields: seq<(string, Value)>)
      requires Valid() && store.Some? && name in store.value
      modifies SlotDoc(name)`attrs, SlotDoc(name)`soft
      ensures Valid() && (old(Tree()) ==> Tree())
      ensures (store.value[name].attrs, store.value[name].soft) ==
                AssignAll(old(store.value[name].attrs), old(store.value[name].soft), fields)
    {
      store.value[name].Assign(fields);
    }

    /**
     * A write `$doc->name = v` of a value. Public properties are written directly;
     * otherwise a soft attribute takes the value; an embedded name given an array
     * bulk-assigns it to the slot's document (see WriteSlot) and given any other
     * value does nothing; the base component rejects any other name.
     */
    method Write(name: string, v: Value) returns (r: Result<()>)
      requires Valid() && reg.Valid()
      modifies this`attrs, this`soft, this`store, this`Repr, reg`embeddedConfig
      modifies SlotDoc(name)`attrs, SlotDoc(name)`soft
      ensures Valid() && reg.Valid()
      ensures name in old(attrs) ==> r == Ok(()) && attrs == old(attrs)[name := v] && unchanged(this`soft, this`store)
      ensures name !in old(attrs) && name in Keys(old(soft)) ==>
                r == Ok(()) && soft == Put(old(soft), name, v) && unchanged(this`attrs, this`store)
      ensures name !in old(attrs) && name !in Keys(old(soft)) && old(reg.IsEmbeddedName(cls, name)) ==>
                unchanged(this`attrs, this`soft) && (!v.Arr? ==> r == Ok(()) && unchanged(this`store))
      ensures name !in old(attrs) && name !in Keys(old(soft)) && old(reg.IsEmbeddedName(cls, name)) && v.Arr? && old(store).None? ==>
                r == Err(NullStore) && unchanged(this`store) && unchanged(reg)
      ensures name !in old(attrs) && name !in Keys(old(soft)) && old(reg.IsEmbeddedName(cls, name)) && v.Arr? &&
              old(store).Some? && name in old(store.value) ==>
                r == Ok(()) && store == old(store) && Repr == old(Repr) && unchanged(reg) &&
                (store.value[name].attrs, store.value[name].soft) ==
                  AssignAll(old(store.value[name].attrs), old(store.value[name].soft), v.entries)
      ensures name !in old(attrs) && name !in Keys(old(soft)) && old(reg.IsEmbeddedName(cls, name)) && v.Arr? &&
              old(store).Some? && name !in old(store.value) ==>
                r == Ok(()) && store.Some? && name in store.value &&
                var c := store.value[name];
                && fresh(c) && store == Some(old(store.value)[name := c])
                && Repr == old(Repr) + {c} && c.Repr == {c}
                && c.cls == reg.EmbeddedClass(cls, name) && c.owner == this
                && c.scenario == scenario && c.errors == []
                && c.store == (if old(reg.HasEmbeddedDocuments(reg.EmbeddedClass(cls, name))) && c.Decl().allowEmbeddedInit
                               then Some(map[]) else None)
                && reg.embeddedConfig == (if c.store.Some? then old(reg.embeddedConfig)[c.cls := c.Decl().embedded]
                                          else old(reg.embeddedConfig))
                && (c.attrs, c.soft) == AssignAll(Defaults(c.Decl().props), c.Decl().soft, v.entries)
      // outside the array branch of an embedded name, no slot, slot document or cached configuration changes
      ensures !(name !in old(attrs) && name !in Keys(old(soft)) && old(reg.IsEmbeddedName(cls, name)) && v.Arr?) ==>
                unchanged(this`store, this`Repr) && unchanged(old(SlotDoc(name))) && unchanged(reg)
      ensures old(Tree()) && WellFormedWorld(reg.classes) ==> Tree()
      ensures name !in old(attrs) && name !in Keys(old(soft)) && !old(reg.IsEmbeddedName(cls, name)) ==>
                r == Err(UndefinedProperty(name)) && unchanged(this`attrs, this`soft, this`store)
    {
      ghost var isTree := Tree();
      if name in attrs {
        attrs := attrs[name := v];
        assert isTree ==> Tree();
        return Ok(());
      } else if name in Keys(soft) {
        soft := Put(soft, name, v);
        assert isTree ==> Tree();
        return Ok(());
      } else if reg.IsEmbeddedName(cls, name) {
        if v.Arr? {
          r := WriteSlot(name, v.entries);
          return;
        }
        return Ok(());
      } else {
        return Err(UndefinedProperty(name));
      }
    }

    /**
     * `__unset($name)` of the soft variant: a soft key is removed from the soft
     * attributes, keeping the others in order; any other name is handed to the base
     * component, whose effect is not part of this model.
     */
    method Unset(name: string) returns (handled: bool)
      modifies this`soft
      ensures handled == (name in Keys(old(soft)))
      ensures soft == if handled then Remove(old(soft), name) else old(soft)
      ensures name !in SoftAttributeNames()
    {
      handled := name in Keys(soft);
      if handled {
        soft := Remove(soft, name);
      }
    }

    /**
     * A write `$doc->name = d` of a nested document. Public properties and soft
     * attributes hold it as an opaque object; an embedded name puts `d` into its slot
     * as it is, without setting its owner; the base component rejects any other name.
     */
    method WriteDocument(name: string, d: Doc) returns (r: Result<()>)
      requires Valid() && reg.Valid()
      requires d.Valid() && d.reg == reg && this !in d.Repr
      modifies this`attrs, this`soft, this`store, this`Repr
      ensures Valid()
      ensures name in old(attrs) ==>
                r == Ok(()) && attrs == old(attrs)[name := Obj] && unchanged(this`soft, this`store, this`Repr)
      ensures name !in old(attrs) && name in Keys(old(soft)) ==>
                r == Ok(()) && soft == Put(old(soft), name, Obj) && unchanged(this`attrs, this`store, this`Repr)
      ensures name !in old(attrs) && name !in Keys(old(soft)) && reg.IsEmbeddedName(cls, name) ==>
                unchanged(this`attrs, this`soft) && d.owner == old(d.owner) &&
                if old(store).None? then r == Err(NullStore) && unchanged(this`store, this`Repr)
                else r == Ok(()) && store == Some(old(store.value)[name := d]) && Repr == old(Repr) + d.Repr
      ensures name !in old(attrs) && name !in Keys(old(soft)) && !reg.IsEmbeddedName(cls, name) ==>
                r == Err(UndefinedProperty(name)) && unchanged(this`attrs, this`soft, this`store, this`Repr)
      ensures old(SlotFits(name, d)) ==> Tree()
    {
      if name in attrs {
        attrs := attrs[name := Obj];
        return Ok(());
      } else if name in Keys(soft) {
        soft := Put(soft, name, Obj);
        return Ok(());
      } else if reg.IsEmbeddedName(cls, name) {
        if store.None? {
          return Err(NullStore);
        }
        Adopt(name, d);
        return Ok(());
      } else {
        return Err(UndefinedProperty(name));
      }
    }

    /**
     * What attributeNames() of an instance yields: the soft keys followed by the
     * class's names, or null when the class's names are null (`array_merge` with null).
     */
    function AttributeNameList(): (r: Option<seq<string>>)
      reads this`soft, reg`embeddedConfig
      requires cls in reg.classes
    {
      match reg.ClassAttributeNames(cls)
      case None => None
      case Some(ns) => Some(ListedNames(soft, ns))
    }

    /** attributeNames() of the soft variant over the class-level cache. */
    method AttributeNames() returns (names: Option<seq<string>>)
      requires reg.Valid() && cls in reg.classes
      modifies reg`attributes
      ensures reg.Valid()
      ensures names == AttributeNameList()
    {
      var inherited := reg.AttributeNames(cls);
      if inherited.None? {
        return None;
      }
      names := Some(ListedNames(soft, inherited.value));
    }

    // ---------------------------------------------------------------------------
    // Conversion to an array

    /**
     * The array toArray() produces: empty when the before hook vetoes, otherwise
     * the inherited conversion with every non-null soft attribute laid over it.
     */
    function Converted(): Result<seq<(string, Value)>>
      reads this`Repr, Repr`Repr, Repr`store, Repr`attrs, Repr`soft, reg`embeddedConfig
      requires Valid()
      decreases Repr, 2
    {
      if !Decl().allowToArray then Ok([])
      else
        match BaseConverted()
        case Err(f) => Err(f)
        case Ok(arr) => Ok(Overlay(arr, soft))
    }

    /**
     * The inherited `_toArray()`: one entry per attribute name, in order. A null
     * name list makes the loop run zero times.
     */
    function BaseConverted(): Result<seq<(string, Value)>>
      reads this`Repr, Repr`Repr, Repr`store, Repr`attrs, Repr`soft, reg`embeddedConfig
      requires Valid()
      decreases Repr, 1
    {
      match AttributeNameList()
      case None => Ok([])
      case Some(ns) => ConvertFrom(ns, 0, [])
    }

    /** The conversion loop from position `i` on, with `acc` built so far. */
    function ConvertFrom(ns: seq<string>, i: nat, acc: seq<(string, Value)>): Result<seq<(string, Value)>>
      reads this`Repr, Repr`Repr, Repr`store, Repr`attrs, Repr`soft, reg`embeddedConfig
      requires Valid() && i <= |ns|
      decreases Repr, 1, |ns| - i
    {
      if i == |ns| then Ok(acc)
      else
        match EntryFor(ns[i])
        case Err(f) => Err(f)
        case Ok(v) => ConvertFrom(ns, i + 1, Put(acc, ns[i], v))
    }

    /**
     * The entry for one attribute name: a declared embedded name gives its slot
     * document's conversion, or null when the slot is empty; any other name gives
     * the value read through `$this->{$name}`.
     */
    function EntryFor(name: string): Result<Value>
      reads this`Repr, Repr`Repr, Repr`store, Repr`attrs, Repr`soft, reg`embeddedConfig
      requires Valid()
      decreases Repr, 0
    {
      if name in Keys(Decl().embedded) then
        if store.None? then Err(NullStore)
        else if name in store.value then
          match store.value[name].Converted()
          case Err(f) => Err(f)
          case Ok(arr) => Ok(Arr(arr))
        else Ok(Null)
      else if name in attrs then Ok(attrs[name])
      else if name in Keys(soft) then Ok(Lookup(soft, name).value)
      else Err(UndefinedProperty(name))
    }

    /**
     * The conversion loop gives each remaining name its entry (a repeated name gets
     * the same entry again) and leaves every other key as it found it.
     */
    lemma {:induction false} ConvertFromEntries(ns: seq<string>, i: nat, acc: seq<(string, Value)>)
      requires Valid() && i <= |ns|
      ensures ConvertFrom(ns, i, acc).Ok? ==>
                forall n :: n in ns[i..] ==> EntryFor(n).Ok? && Lookup(ConvertFrom(ns, i, acc).value, n) == Some(EntryFor(n).value)
      ensures ConvertFrom(ns, i, acc).Ok? ==>
                forall n :: n !in ns[i..] ==> Lookup(ConvertFrom(ns, i, acc).value, n) == Lookup(acc, n)
      decreases |ns| - i
    {
      if i < |ns| {
        var e := EntryFor(ns[i]);
        if e.Ok? {
          var acc' := Put(acc, ns[i], e.value);
          ConvertFromEntries(ns, i + 1, acc');
          assert ns[i..] == [ns[i]] + ns[i + 1..];
          forall n | n != ns[i]
            ensures Lookup(acc', n) == Lookup(acc, n)
          {
            PutOther(acc, ns[i], e.value, n);
          }
        }
      }
    }

    /**
     * toArray() when the hook allows it: every attribute name is a key, and unless
     * a non-null soft attribute of that name overrides it, an empty slot gives
     * null, a materialised slot its document's conversion and a plain name its
     * value. No other key appears.
     */
    lemma ConvertedEntries()
      requires Valid() && SoftValid() && Decl().allowToArray && AttributeNameList().Some? && Converted().Ok?
      ensures var arr := Converted().value;
              forall n :: n in AttributeNameList().value && !(n in Keys(soft) && Lookup(soft, n).value != Null) ==>
                && (n in Keys(Decl().embedded) && store.Some? && n !in store.value ==> Lookup(arr, n) == Some(Null))
                && (n in Keys(Decl().embedded) && store.Some? && n in store.value ==>
                      store.value[n].Converted().Ok? && Lookup(arr, n) == Some(Arr(store.value[n].Converted().value)))
                && (n !in Keys(Decl().embedded) && n in attrs ==> Lookup(arr, n) == Some(attrs[n]))
      ensures forall n :: n in Keys(Converted().value) ==> n in AttributeNameList().value
      ensures forall n :: n in Keys(soft) && n !in Keys(Decl().embedded) && n !in attrs ==>
                Lookup(Converted().value, n) == Lookup(soft, n)
    {
      var ns := AttributeNameList().value;
      var base := BaseConverted().value;
      ConvertFromEntries(ns, 0, []);
      assert ns[0..] == ns;
      forall n | true
        ensures Lookup(Converted().value, n) ==
                  if n in Keys(soft) && Lookup(soft, n).value != Null then Lookup(soft, n) else Lookup(base, n)
      {
        OverlayLookup(base, soft, n);
      }
      forall n | n in Keys(soft)
        ensures n in ns
      {
        assert ns[..|soft|] == Keys(soft);
      }
    }

    /** toArray(): the before hook decides, then `_toArray()` of the soft variant. */
    method ToArray() returns (r: Result<seq<(string, Value)>>)
      requires Valid() && reg.Valid()
      modifies reg`attributes
      ensures reg.Valid() && r == Converted()
      ensures !Decl().allowToArray ==> r == Ok([])
      decreases Repr, 2
    {
      if !Decl().allowToArray {
        return Ok([]);
      }
      var base := BaseToArray();
      if base.Err? {
        return Err(base.fault);
      }
      var arr := base.value;
      var i := 0;
      while i < |soft|
        invariant 0 <= i <= |soft|
        invariant Overlay(arr, soft[i..]) == Overlay(base.value, soft)
      {
        assert soft[i..][1..] == soft[i + 1..];
        if soft[i].1 != Null {
          arr := Put(arr, soft[i].0, soft[i].1);
        }
        i := i + 1;
      }
      assert soft[i..] == [];
      // afterToArray(): observers only
      return Ok(arr);
    }

    /** One step of the inherited `_toArray()` loop. */
    method EntryToArray(name: string) returns (r: Result<Value>)
      requires Valid() && reg.Valid()
      modifies reg`attributes
      ensures reg.Valid() && r == EntryFor(name)
      decreases Repr, 0
    {
      if name in Keys(Decl().embedded) {
        if store.None? {
          return Err(NullStore);
        }
        if name !in store.value {
          return Ok(Null);
        }
        var sub := store.value[name].ToArray();
        if sub.Err? {
          return Err(sub.fault);
        }
        return Ok(Arr(sub.value));
      } else if name in attrs {
        return Ok(attrs[name]);
      } else if name in Keys(soft) {
        return Ok(Lookup(soft, name).value);
      } else {
        return Err(UndefinedProperty(name));
      }
    }

    /** The inherited `_toArray()`: walks the attribute names without creating any slot. */
    method BaseToArray() returns (r: Result<seq<(string, Value)>>)
      requires Valid() && reg.Valid()
      modifies reg`attributes
      ensures reg.Valid() && r == BaseConverted()
      decreases Repr, 1, 1
    {
      var names := AttributeNames();
      if names.None? {
        return Ok([]);
      }
      r := ConvertNames(names.value);
    }

    /** The loop of the inherited `_toArray()` over a list of attribute names. */
    method ConvertNames(ns: seq<string>) returns (r: Result<seq<(string, Value)>>)
      requires Valid() && reg.Valid()
      modifies reg`attributes
      ensures reg.Valid() && r == ConvertFrom(ns, 0, [])
      decreases Repr, 1, 0
    {
      var arr: seq<(string, Value)> := [];
      var i := 0;
      while i < |ns|
        invariant 0 <= i <= |ns|
        invariant reg.Valid()
        invariant ConvertFrom(ns, i, arr) == ConvertFrom(ns, 0, [])
      {
        var v := EntryToArray(ns[i]);
        if v.Err? {
          return Err(v.fault);
        }
        arr := Put(arr, ns[i], v.value);
        i := i + 1;
      }
      return Ok(arr);
    }

    // ---------------------------------------------------------------------------
    // Scenario propagation

    /**
     * No document is shared: different slots own disjoint footprints, all the way
     * down, and every slot is a declared embedded name. Validation is stated for
     * such trees.
     */
    ghost predicate Tree()
      reads this`Repr, Repr`Repr, Repr`store
      requires Valid()
      decreases Repr
    {
      store.Some? ==>
        && UniqueKeys(Decl().embedded)
        && (forall k :: k in store.value ==> k in Keys(Decl().embedded))
        && (forall k, k' :: k in store.value && k' in store.value && k != k' ==>
              store.value[k].Repr !! store.value[k'].Repr)
        && (forall k :: k in store.value ==> store.value[k].Tree())
    }

    /**
     * `d` is among the documents setScenario() reaches from this one: this document
     * and, when the class has embedded documents, everything reached from its filled slots.
     */
    ghost predicate Reaches(d: Doc)
      reads this`Repr, Repr`Repr, Repr`store, reg`embeddedConfig
      requires Valid()
      decreases Repr
    {
      || d == this
      || (reg.HasEmbeddedDocuments(cls) && store.Some? &&
          exists k :: k in store.value && store.value[k].Reaches(d))
    }

    /** Every document reached lies in the footprint. */
    lemma {:induction false} ReachesInRepr(d: Doc)
      requires Valid() && Reaches(d)
      ensures d in Repr
      decreases Repr
    {
      if d != this {
        var k :| k in store.value && store.value[k].Reaches(d);
        store.value[k].ReachesInRepr(d);
      }
    }

    /** The reached documents as a set. */
    ghost function Reached(): set<Doc>
      reads this`Repr, Repr`Repr, Repr`store, reg`embeddedConfig
      requires Valid()
    {
      set d | d in Repr && Reaches(d)
    }

    /** The reached documents other than this one are exactly those reached from some slot. */
    lemma ReachedSlots()
      requires Valid() && reg.HasEmbeddedDocuments(cls) && store.Some?
      ensures forall k :: k in store.value ==> store.value[k].Reached() <= Reached() - {this}
      ensures forall d :: d in Reached() && d != this ==> exists k :: k in store.value && d in store.value[k].Reached()
    {
      forall d | d in Reached() && d != this
        ensures exists k :: k in store.value && d in store.value[k].Reached()
      {
        var k :| k in store.value && store.value[k].Reaches(d);
        store.value[k].ReachesInRepr(d);
      }
    }

    /**
     * setScenario(): every materialised slot document takes the new scenario (and
     * passes it on to its own slots), then this document does. Exactly the reached
     * documents change; a document shared by several slots is simply set again.
     */
    method SetScenario(value: string)
      requires Valid()
      modifies Repr`scenario
      ensures forall d :: d in old(Reached()) ==> d.scenario == value
      ensures forall d :: d in Repr && d !in old(Reached()) ==> d.scenario == old(d.scenario)
      decreases Repr, 2, 0
    {
      if reg.HasEmbeddedDocuments(cls) && store.Some? {
        SetSlotsScenario(value);
      }
      scenario := value;
    }

    /** What each filled slot reaches. */
    ghost function SlotsReached(): (m: map<string, set<Doc>>)
      reads this`Repr, Repr`Repr, Repr`store, reg`embeddedConfig
      requires Valid() && store.Some?
      ensures m.Keys == store.value.Keys
    {
      map k | k in store.value :: store.value[k].Reached()
    }

    /** The loop of setScenario() over the slot store; this document's own scenario is left alone. */
    method SetSlotsScenario(value: string)
      requires Valid() && reg.HasEmbeddedDocuments(cls) && store.Some?
      modifies Repr`scenario
      ensures forall d :: d in old(Reached()) && d != this ==> d.scenario == value
      ensures forall d :: d in Repr && (d !in old(Reached()) || d == this) ==> d.scenario == old(d.scenario)
      decreases Repr, 1, 0
    {
      ReachedSlots();
      SetEachSlotScenario(store.value.Keys, value);
    }

    /** The slots named in `keys` take the new scenario, one after the other. */
    method SetEachSlotScenario(keys: set<string>, value: string)
      requires Valid() && store.Some? && keys <= store.value.Keys
      modifies Repr`scenario
      ensures forall k, d :: k in keys && d in old(SlotsReached())[k] ==> d.scenario == value
      ensures forall d :: d in Repr && (forall k :: k in keys ==> d !in old(SlotsReached())[k]) ==>
                d.scenario == old(d.scenario)
      decreases Repr, 0, |keys|
    {
      if keys != {} {
        var k :| k in keys;
        ghost var below := SlotsReached();
        store.value[k].SetScenario(value);
        label Child:
        assert SlotsReached() == below;
        SetEachSlotScenario(keys - {k}, value);
        forall j, d: Doc | j in keys && d in below[j] ensures d.scenario == value {
          if d !in below[k] {
            assert j != k;
          } else if forall i :: i in keys - {k} ==> d !in below[i] {
            assert d.scenario == old@Child(d.scenario);
          }
        }
        forall d: Doc | d in Repr && (forall j :: j in keys ==> d !in below[j])
          ensures d.scenario == old(d.scenario)
        {
          assert d !in below[k];
        }
      }
    }

    // ---------------------------------------------------------------------------
    // Validation

    /** The embedded name `k` takes part in a validation of the attributes `sub` (all when absent). */
    static predicate Selected(k: string, sub: Option<seq<string>>)
    {
      sub.None? || k in sub.value
    }

    /**
     * The error store validate($attributes, $clearErrors) leaves in this document,
     * computed from the state before the call: the kept store (none when clearing),
     * the rule messages of the requested attributes, and then, when the class has
     * embedded documents and a slot store, what validating each requested filled
     * slot leaves in that slot, in declaration order.
     */
    ghost function ValidatedErrors(sub: Option<seq<string>>, clear: bool): Errors
      reads this`Repr, Repr`Repr, Repr`store, Repr`errors, Repr`ruleErrors, reg`embeddedConfig
      requires Valid()
      decreases Repr, 1, 0
    {
      (if clear then [] else errors) + RulesFor(ruleErrors, sub)
      + (if reg.HasEmbeddedDocuments(cls) && store.Some? then SlotsValidated(Keys(Decl().embedded), sub, clear) else [])
    }

    /** What the slots named in `names` contribute to the store, in that order; none of it is this document's own store. */
    ghost function SlotsValidated(names: seq<string>, sub: Option<seq<string>>, clear: bool): Errors
      reads this`Repr, Repr`Repr, Repr`store, (Repr - {this})`errors, Repr`ruleErrors, reg`embeddedConfig
      requires Valid() && store.Some?
      decreases Repr, 0, |names|
    {
      if names == [] then []
      else SlotsValidated(names[..|names| - 1], sub, clear) + SlotValidated(names[|names| - 1], sub, clear)
    }

    /** What the slot named `k` contributes: its validated store when it is filled and requested. */
    ghost function SlotValidated(k: string, sub: Option<seq<string>>, clear: bool): Errors
      reads this`Repr, Repr`Repr, Repr`store, (Repr - {this})`errors, Repr`ruleErrors, reg`embeddedConfig
      requires Valid() && store.Some?
      decreases Repr, 0, 0
    {
      if k in store.value && Selected(k, sub) then store.value[k].ValidatedErrors(None, clear) else []
    }

    /**
     * validate($attributes) runs without a fatal error: when the class has embedded
     * documents, the slot store exists unless nothing is declared, and every
     * requested filled slot is reachable through a cached embedded name and can be
     * validated in turn.
     */
    ghost predicate Validatable(sub: Option<seq<string>>)
      reads this`Repr, Repr`Repr, Repr`store, reg`embeddedConfig
      requires Valid()
      decreases Repr, 1, 0
    {
      reg.HasEmbeddedDocuments(cls) ==>
        if store.None? then Decl().embedded == [] else SlotsValidatable(Keys(Decl().embedded), sub)
    }

    /** Every slot named in `names` can be visited without a fatal error. */
    ghost predicate SlotsValidatable(names: seq<string>, sub: Option<seq<string>>)
      reads this`Repr, Repr`Repr, Repr`store, reg`embeddedConfig
      requires Valid() && store.Some?
      decreases Repr, 0, |names|
    {
      names != [] ==> SlotsValidatable(names[..|names| - 1], sub) && SlotValidatable(names[|names| - 1], sub)
    }

    /** The slot named `k`, when filled and requested, is reached through a cached embedded name and can be validated. */
    ghost predicate SlotValidatable(k: string, sub: Option<seq<string>>)
      reads this`Repr, Repr`Repr, Repr`store, reg`embeddedConfig
      requires Valid() && store.Some?
      decreases Repr, 0, 0
    {
      k in store.value && Selected(k, sub) ==> reg.IsEmbeddedName(cls, k) && store.value[k].Validatable(None)
    }

    /** The footprints of the requested filled slots named in `names`: what validating them may change. */
    ghost function SlotsFootprint(names: seq<string>, sub: Option<seq<string>>): (fp: set<Doc>)
      reads this`Repr, Repr`Repr, Repr`store
      requires Valid() && store.Some?
      ensures fp <= Repr - {this}
    {
      if names == [] then {}
      else
        var k := names[|names| - 1];
        SlotsFootprint(names[..|names| - 1], sub)
        + (if k in store.value && Selected(k, sub) then store.value[k].Repr else {})
    }

    /** What validate($attributes) may change below this document: the footprints of the slots it visits. */
    ghost function Visited(sub: Option<seq<string>>): (fp: set<Doc>)
      reads this`Repr, Repr`Repr, Repr`store, reg`embeddedConfig
      requires Valid()
      ensures fp <= Repr - {this}
    {
      if reg.HasEmbeddedDocuments(cls) && store.Some? then SlotsFootprint(Keys(Decl().embedded), sub) else {}
    }

    /**
     * validate($attributes, $clearErrors): the base model's validation (the store
     * cleared when asked, then what the rules report on the requested attributes),
     * then the override's loop over the embedded names. It fails exactly when the
     * tree is not validatable; otherwise the store becomes ValidatedErrors, and the
     * answer is true exactly when the store ends up without messages. Documents
     * outside the visited slots keep their errors.
     */
    method Validate(sub: Option<seq<string>>, clear: bool) returns (r: Result<bool>)
      requires Valid() && Tree()
      modifies Repr`errors
      ensures r.Ok? <==> old(Validatable(sub))
      ensures r.Ok? ==> errors == old(ValidatedErrors(sub, clear)) && (r.value <==> errors == [])
      ensures r.Ok? && reg.HasEmbeddedDocuments(cls) && store.Some? ==>
                forall k :: k in Keys(Decl().embedded) && k in store.value && Selected(k, sub) ==>
                  store.value[k].errors == old(store.value[k].ValidatedErrors(None, clear))
      ensures reg.HasEmbeddedDocuments(cls) && Decl().embedded != [] && store.None? ==> r == Err(NullStore)
      ensures r.Err? ==> r.fault == NullStore || r.fault.UndefinedProperty?
      ensures forall x :: x in Repr && x != this && x !in old(Visited(sub)) ==> x.errors == old(x.errors)
      decreases Repr, 2, 0
    {
      // the base model: clearErrors() when asked, then the rules
      var kept := if clear then [] else errors;
      errors := kept + RulesFor(ruleErrors, sub);
      if reg.HasEmbeddedDocuments(cls) {
        if store.Some? {
          OwnErrorsApart(clear);
        }
        r := ValidateSlots(sub, clear);
      } else {
        r := Ok(errors == []);
      }
    }

    /**
     * The loop of the validate() override over the declared embedded names: each
     * materialised slot whose name is requested is validated with the caller's
     * `clear`, and its messages are added when it has any. Reading a slot of an
     * absent store is a fatal error, and so is reaching a slot through an embedded
     * name whose configuration is not cached.
     */
    method ValidateSlots(sub: Option<seq<string>>, clear: bool) returns (r: Result<bool>)
      requires Valid() && Tree() && reg.HasEmbeddedDocuments(cls)
      modifies Repr`errors
      ensures r.Ok? <==> old(Validatable(sub))
      ensures r.Ok? ==>
                errors == old(errors) + (if store.Some? then old(SlotsValidated(Keys(Decl().embedded), sub, clear)) else [])
      ensures r.Ok? ==> (r.value <==> errors == [])
      ensures r.Ok? && store.Some? ==> forall k :: k in Keys(Decl().embedded) && k in store.value && Selected(k, sub) ==>
                store.value[k].errors == old(store.value[k].ValidatedErrors(None, clear))
      ensures Decl().embedded != [] && store.None? ==> r == Err(NullStore)
      ensures r.Err? ==> r.fault == NullStore || r.fault.UndefinedProperty?
      ensures forall x :: x in Repr && x != this && x !in old(Visited(sub)) ==> x.errors == old(x.errors)
      decreases Repr, 1, 0
    {
      var names := Keys(Decl().embedded);
      var valid := errors == [];
      if store.None? {
        if names != [] {
          return Err(NullStore);
        }
        return Ok(valid);
      }
      UniqueKeysDistinct(Decl().embedded);
      var each := ValidateEach(names, sub, clear);
      if each.Err? {
        return Err(each.fault);
      }
      r := Ok(valid && each.value);
    }

    /**
     * The `foreach` of that loop over `names`, written as recursion: the names
     * before the last one first, then the last one. The answer is true exactly
     * when the visited slots contribute no message.
     */
    method ValidateEach(names: seq<string>, sub: Option<seq<string>>, clear: bool) returns (r: Result<bool>)
      requires Valid() && Tree() && store.Some? && Distinct(names)
      modifies Repr`errors
      ensures r.Ok? <==> old(SlotsValidatable(names, sub))
      ensures r.Ok? ==> errors == old(errors) + old(SlotsValidated(names, sub, clear))
      ensures r.Ok? ==> (r.value <==> old(SlotsValidated(names, sub, clear)) == [])
      ensures r.Ok? ==> forall k :: k in names && k in store.value && Selected(k, sub) ==>
                store.value[k].errors == old(store.value[k].ValidatedErrors(None, clear))
      ensures r.Err? ==> r.fault == NullStore || r.fault.UndefinedProperty?
      ensures forall x :: x in Repr && x != this && x !in old(SlotsFootprint(names, sub)) ==> x.errors == old(x.errors)
      decreases Repr, 0, |names|
    {
      if names == [] {
        return Ok(true);
      }
      var init := names[..|names| - 1];
      var name := names[|names| - 1];
      assert Distinct(init) && name !in init;
      ghost var e0 := errors;
      ghost var before := SlotsValidated(init, sub, clear);
      ghost var last := SlotValidated(name, sub, clear);
      ghost var done := SlotsFootprint(init, sub);
      ghost var slot := if name in store.value && Selected(name, sub) then store.value[name].Repr else {};
      assert SlotsFootprint(names, sub) == done + slot;
      ghost var lastOk := SlotValidatable(name, sub);
      assert SlotsValidatable(names, sub) == (SlotsValidatable(init, sub) && lastOk);
      if name in store.value {
        SlotOutside(name, init, sub);
      }
      r := ValidateEach(init, sub, clear);
      if r.Err? {
        return;
      }
      OtherSlotsValidated(EachStep(name, init, sub, clear));
      assert errors == e0 + before;
      var v := ValidateSlot(name, sub, clear);
      if v.Err? {
        return Err(v.fault);
      }
      assert errors == e0 + before + last;
      AppendTwice(e0, before, last);
      forall k | k in names && k in store.value && Selected(k, sub)
        ensures store.value[k].errors == old(store.value[k].ValidatedErrors(None, clear))
      {
        InFrontOrLast(names, k);
      }
      r := Ok(r.value && v.value);
    }

    /** The footprint of the slot `name` lies outside the footprints of the other slots named in `names`. */
    lemma SlotOutside(name: string, names: seq<string>, sub: Option<seq<string>>)
      requires Valid() && Tree() && store.Some? && name !in names && name in store.value
      ensures store.value[name].Repr !! SlotsFootprint(names, sub)
      decreases |names|
    {
      if names != [] {
        SlotOutside(name, names[..|names| - 1], sub);
      }
    }

    /**
     * Validating the slots named in `names` changes neither the structure nor what
     * validating the slot `name`, which is not among them, would do.
     */
    twostate lemma OtherSlotsValidated(step: EachStep)
      requires old(Valid())
      requires old(Tree())
      requires old(store.Some?)
      requires step.name in old(store.value) && Selected(step.name, step.sub) ==>
                 old(store.value[step.name].Repr) !! old(SlotsFootprint(step.before, step.sub))
      requires forall x :: x in old(Repr) ==> x.Repr == old(x.Repr) && x.store == old(x.store) && x.ruleErrors == old(x.ruleErrors)
      requires forall x :: x in old(Repr) && x != this && x !in old(SlotsFootprint(step.before, step.sub)) ==> x.errors == old(x.errors)
      requires unchanged(reg`embeddedConfig)
      ensures Valid() && Tree() && store.Some?
      ensures SlotValidated(step.name, step.sub, step.clear) == old(SlotValidated(step.name, step.sub, step.clear))
      ensures SlotValidatable(step.name, step.sub) == old(SlotValidatable(step.name, step.sub))
      ensures step.name in store.value && Selected(step.name, step.sub) ==>
                store.value[step.name].ValidatedErrors(None, step.clear) == old(store.value[step.name].ValidatedErrors(None, step.clear))
    {
      if step.name in store.value && Selected(step.name, step.sub) {
        store.value[step.name].ValidatedUnchanged(step.clear);
      }
    }

    /** Changing only this document's own store leaves what validating each slot would leave as it was. */
    twostate lemma OwnErrorsApart(clear: bool)
      requires old(Valid()) && old(store.Some?)
      requires unchanged(this`store, this`Repr) && unchanged(old(Repr) - {this}) && unchanged(reg`embeddedConfig)
      ensures forall k :: k in store.value ==>
                store.value[k].ValidatedErrors(None, clear) == old(store.value[k].ValidatedErrors(None, clear))
    {
      forall k | k in store.value
        ensures store.value[k].ValidatedErrors(None, clear) == old(store.value[k].ValidatedErrors(None, clear))
      {
        store.value[k].ValidatedUnchanged(clear);
      }
    }

    /** Validating other documents leaves what validating this one would leave as it was. */
    twostate lemma ValidatedUnchanged(clear: bool)
      requires old(Valid())
      requires forall x :: x in old(Repr) ==> x.Repr == old(x.Repr) && x.store == old(x.store) && x.errors == old(x.errors) && x.ruleErrors == old(x.ruleErrors)
      requires unchanged(reg`embeddedConfig)
      ensures Valid() && ValidatedErrors(None, clear) == old(ValidatedErrors(None, clear))
    {
    }

    /**
     * One pass of that loop: the slot named `name`, when filled and requested, is
     * reached through the magic getter, validated with the caller's `clear`, and
     * its messages are appended. The answer is true exactly when it contributes
     * no message.
     */
    method ValidateSlot(name: string, sub: Option<seq<string>>, clear: bool) returns (r: Result<bool>)
      requires Valid() && Tree() && store.Some?
      modifies Repr`errors
      ensures r.Ok? <==> old(SlotValidatable(name, sub))
      ensures r.Ok? ==> errors == old(errors) + old(SlotValidated(name, sub, clear))
      ensures r.Ok? ==> (r.value <==> old(SlotValidated(name, sub, clear)) == [])
      ensures r.Ok? && name in store.value && Selected(name, sub) ==>
                store.value[name].errors == old(store.value[name].ValidatedErrors(None, clear))
      ensures forall k :: k in store.value && k != name ==> store.value[k].errors == old(store.value[k].errors)
      ensures r.Err? ==> r.fault == NullStore || r.fault.UndefinedProperty?
      ensures forall x :: x in Repr && x != this && (name in store.value && Selected(name, sub) ==> x !in store.value[name].Repr) ==>
                x.errors == old(x.errors)
      decreases Repr, 0, 0
    {
      if name !in store.value || !Selected(name, sub) {
        return Ok(true);
      }
      if !reg.IsEmbeddedName(cls, name) {
        return Err(UndefinedProperty(name));
      }
      var c := store.value[name];
      var v := c.Validate(None, clear);
      if v.Err? {
        return Err(v.fault);
      }
      if c.errors != [] {
        errors := errors + c.errors;
      }
      r := Ok(v.value);
    }

    /** A requested filled slot whose own rules report something leaves a message in the validated store. */
    lemma SelectedSlotRuleErrors(k: string, sub: Option<seq<string>>, clear: bool)
      requires Valid() && reg.HasEmbeddedDocuments(cls) && store.Some?
      requires k in Keys(Decl().embedded) && k in store.value && Selected(k, sub)
      requires store.value[k].ruleErrors != []
      ensures ValidatedErrors(sub, clear) != []
    {
      SlotsValidatedHas(Keys(Decl().embedded), k, sub, clear);
    }

    lemma {:induction false} SlotsValidatedHas(names: seq<string>, k: string, sub: Option<seq<string>>, clear: bool)
      requires Valid() && store.Some?
      requires k in names && k in store.value && Selected(k, sub) && store.value[k].ruleErrors != []
      ensures SlotsValidated(names, sub, clear) != []
      decreases |names|
    {
      var init := names[..|names| - 1];
      if names[|names| - 1] != k {
        assert names == init + [names[|names| - 1]];
        SlotsValidatedHas(init, k, sub, clear);
      } else {
        assert SlotValidated(k, sub, clear) != [];
      }
    }

    /** No rule of this document or of any document below it reports anything. */
    ghost predicate RulesPass()
      reads this`Repr, Repr`Repr, Repr`store, Repr`ruleErrors
      requires Valid()
      decreases Repr
    {
      ruleErrors == [] && (store.Some? ==> forall k :: k in store.value ==> store.value[k].RulesPass())
    }

    /** When no rule reports anything, a clearing validation leaves every visited store empty. */
    lemma {:induction false} CleanValidation(sub: Option<seq<string>>)
      requires Valid() && RulesPass()
      ensures ValidatedErrors(sub, true) == []
      decreases Repr, 1
    {
      if reg.HasEmbeddedDocuments(cls) && store.Some? {
        SlotsClean(Keys(Decl().embedded), sub);
      }
    }

    lemma {:induction false} SlotsClean(names: seq<string>, sub: Option<seq<string>>)
      requires Valid() && store.Some? && RulesPass()
      ensures SlotsValidated(names, sub, true) == []
      decreases Repr, 0, |names|
    {
      if names != [] {
        SlotsClean(names[..|names| - 1], sub);
        var k := names[|names| - 1];
        if k in store.value && Selected(k, sub) {
          store.value[k].CleanValidation(None);
        }
      }
    }

    // ---------------------------------------------------------------------------
    // Attribute values

    /**
     * The value getAttributes() records for one attribute name: null for a declared
     * embedded name whose slot is empty, otherwise what a read of the name yields,
     * which never creates a slot here.
     */
    function EntryView(name: string): (r: Result<Item>)
      reads this`store, this`attrs, this`soft, reg`embeddedConfig
      requires cls in reg.classes
    {
      if name in Keys(Decl().embedded) && store.None? then Err(NullStore)
      else if name in Keys(Decl().embedded) && name !in store.value then Ok(Scalar(Null))
      else if name in attrs then Ok(Scalar(attrs[name]))
      else if name in Keys(soft) then Ok(Scalar(Lookup(soft, name).value))
      else if reg.IsEmbeddedName(cls, name) && store.Some? && name in store.value then Ok(Nested(store.value[name]))
      else Err(UndefinedProperty(name))
    }

    /** The collection loop of getAttributes() from position `i` on. */
    function CollectFrom(ns: seq<string>, i: nat, acc: seq<(string, Item)>): Result<seq<(string, Item)>>
      reads this`store, this`attrs, this`soft, reg`embeddedConfig
      requires cls in reg.classes && i <= |ns|
      decreases |ns| - i
    {
      if i == |ns| then Ok(acc)
      else
        match EntryView(ns[i])
        case Err(f) => Err(f)
        case Ok(it) => CollectFrom(ns, i + 1, Put(acc, ns[i], it))
    }

    /** The collection loop gives each remaining name its value and leaves every other key alone. */
    lemma {:induction false} CollectFromEntries(ns: seq<string>, i: nat, acc: seq<(string, Item)>)
      requires cls in reg.classes && i <= |ns|
      ensures CollectFrom(ns, i, acc).Ok? ==>
                forall n :: n in ns[i..] ==> EntryView(n).Ok? && Lookup(CollectFrom(ns, i, acc).value, n) == Some(EntryView(n).value)
      ensures CollectFrom(ns, i, acc).Ok? ==>
                forall n :: n !in ns[i..] ==> Lookup(CollectFrom(ns, i, acc).value, n) == Lookup(acc, n)
      decreases |ns| - i
    {
      if i < |ns| {
        var e := EntryView(ns[i]);
        if e.Ok? {
          var acc' := Put(acc, ns[i], e.value);
          CollectFromEntries(ns, i + 1, acc');
          assert ns[i..] == [ns[i]] + ns[i + 1..];
          forall n | n != ns[i]
            ensures Lookup(acc', n) == Lookup(acc, n)
          {
            PutOther(acc, ns[i], e.value, n);
          }
        }
      }
    }

    /** getAttributes(): every attribute's value, or just the requested names. */
    function AttributesView(names: Option<seq<string>>): Result<seq<(string, Item)>>
      reads this`store, this`attrs, this`soft, reg`embeddedConfig
      requires cls in reg.classes
    {
      var all := match AttributeNameList() case None => Ok([]) case Some(ns) => CollectFrom(ns, 0, []);
      match all
      case Err(f) => Err(f)
      case Ok(values) => if names.None? then Ok(values) else Ok(Select(values, names.value))
    }

    /**
     * getAttributes() without a name list: every attribute name is a key holding
     * what a read yields, and null for an embedded name whose slot is empty; no
     * other key appears. With a name list: exactly the requested names are keys,
     * each holding the collected value, or null for a name that is not an attribute.
     */
    lemma AttributesViewEntries(names: Option<seq<string>>)
      requires cls in reg.classes && AttributesView(names).Ok?
      ensures names.None? && AttributeNameList().Some? ==>
                forall n :: n in AttributeNameList().value ==>
                  && EntryView(n).Ok? && Lookup(AttributesView(names).value, n) == Some(EntryView(n).value)
                  && (n in Keys(Decl().embedded) && n !in store.value ==> EntryView(n) == Ok(Scalar(Null)))
      ensures names.None? ==>
                forall n :: n in Keys(AttributesView(names).value) ==> AttributeNameList().Some? && n in AttributeNameList().value
      ensures names.Some? ==>
                forall n :: n in Keys(AttributesView(names).value) <==> n in names.value
      ensures names.Some? ==>
                forall n :: n in names.value ==>
                  if AttributeNameList().Some? && n in AttributeNameList().value
                  then EntryView(n).Ok? && Lookup(AttributesView(names).value, n) == Some(EntryView(n).value)
                  else Lookup(AttributesView(names).value, n) == Some(Scalar(Null))
    {
      var all := match AttributeNameList() case None => Ok([]) case Some(ns) => CollectFrom(ns, 0, []);
      if AttributeNameList().Some? {
        var ns := AttributeNameList().value;
        CollectFromEntries(ns, 0, []);
        assert ns[0..] == ns;
      }
      if names.Some? {
        SelectFromEntries(all.value, names.value, 0, []);
        assert names.value[0..] == names.value;
      }
    }

    /** getAttributes(): collects every attribute without creating a slot, then selects. */
    method GetAttributes(names: Option<seq<string>>) returns (r: Result<seq<(string, Item)>>)
      requires reg.Valid() && cls in reg.classes
      modifies reg`attributes
      ensures reg.Valid() && r == AttributesView(names)
    {
      var all := AttributeNames();
      var values: seq<(string, Item)> := [];
      if all.Some? {
        var ns := all.value;
        var i := 0;
        while i < |ns|
          invariant 0 <= i <= |ns|
          invariant CollectFrom(ns, i, values) == CollectFrom(ns, 0, [])
        {
          var it := EntryView(ns[i]);
          if it.Err? {
            return Err(it.fault);
          }
          values := Put(values, ns[i], it.value);
          i := i + 1;
        }
      }
      if names.None? {
        return Ok(values);
      }
      var picked := SelectNames(values, names.value);
      return Ok(picked);
    }
  }

  /**
   * The selection step of getAttributes(): one entry per requested name, in order
   * of first request, holding the collected value or null for an unknown name.
   */
  function Select(values: seq<(string, Item)>, ns: seq<string>): seq<(string, Item)>
  {
    SelectFrom(values, ns, 0, [])
  }

  /** `isset($values[$name]) ? $values[$name] : null`. */
  function Found(values: seq<(string, Item)>, name: string): Item
  {
    match Lookup(values, name)
    case Some(it) => it
    case None => Scalar(Null)
  }

  function SelectFrom(values: seq<(string, Item)>, ns: seq<string>, i: nat, acc: seq<(string, Item)>)
    : seq<(string, Item)>
    requires i <= |ns|
    decreases |ns| - i
  {
    if i == |ns| then acc
    else
      SelectFrom(values, ns, i + 1, Put(acc, ns[i], Found(values, ns[i])))
  }

  /** The selection gives each remaining requested name its value, or null, and leaves other keys alone. */
  lemma {:induction false} SelectFromEntries(values: seq<(string, Item)>, ns: seq<string>, i: nat, acc: seq<(string, Item)>)
    requires i <= |ns|
    ensures forall n :: n in ns[i..] ==> Lookup(SelectFrom(values, ns, i, acc), n) == Some(Found(values, n))
    ensures forall n :: n !in ns[i..] ==> Lookup(SelectFrom(values, ns, i, acc), n) == Lookup(acc, n)
    decreases |ns| - i
  {
    if i < |ns| {
      var acc' := Put(acc, ns[i], Found(values, ns[i]));
      SelectFromEntries(values, ns, i + 1, acc');
      assert ns[i..] == [ns[i]] + ns[i + 1..];
      forall n | n != ns[i]
        ensures Lookup(acc', n) == Lookup(acc, n)
      {
        PutOther(acc, ns[i], Found(values, ns[i]), n);
      }
    }
  }

  /** The selection loop of getAttributes(). */
  method SelectNames(values: seq<(string, Item)>, ns: seq<string>) returns (picked: seq<(string, Item)>)
    ensures picked == Select(values, ns)
  {
    picked := [];
    var i := 0;
    while i < |ns|
      invariant 0 <= i <= |ns|
      invariant SelectFrom(values, ns, i, picked) == Select(values, ns)
    {
      picked := Put(picked, ns[i], Found(values, ns[i]));
      i := i + 1;
    }
  }
}

=== FILE: mongo_validator.dfy ===
/**
 * extra/EMongoValidator.php: a rule that checks an attribute holds a driver
 * identifier or date object, converting a convertible value in place when
 * filtering is on, and the static identifier check isMongoId().
 */
module MongoValidator {
  import opened PhpValues
  import opened Validation

  /** The two supported values of the `type` option. */
  const TypeObjectId: string := "id"
  const TypeDate: string := "date"

  /** The default messages, before translation and placeholder substitution. */
  const EmptyMessage: string := "{attribute} may not be empty."
  const IdMessage: string := "{attribute} must be an instance of MongoId."
  const DateMessage: string := "{attribute} must be an instance of MongoDate."

  /** The placeholder the base validator replaces by the attribute's label. */
  const Placeholder: string := "{attribute}"

  // ---------------------------------------------------------------------------
  // Hexadecimal identifiers

  /** One character of the class `[a-fA-F0-9]`. */
  predicate IsHexDigit(c: char)
  {
    ('0' <= c <= '9') || ('a' <= c <= 'f') || ('A' <= c <= 'F')
  }

  /** Exactly 24 characters of `[a-fA-F0-9]`: the text form of a driver identifier. */
  predicate IsHex24(s: string)
  {
    |s| == 24 && forall i :: 0 <= i < |s| ==> IsHexDigit(s[i])
  }

  /** The length of the longest prefix of `s` made of hexadecimal digits. */
  function HexRun(s: string): (n: nat)
    ensures n <= |s|
    ensures forall i :: 0 <= i < n ==> IsHexDigit(s[i])
    ensures n < |s| ==> !IsHexDigit(s[n])
  {
    if s == [] || !IsHexDigit(s[0]) then 0 else 1 + HexRun(s[1..])
  }

  /**
   * `preg_match('/^[a-fA-F0-9]{24}$/', s)` as PCRE evaluates it: without the D
   * modifier, `$` matches at the very end and also just before a final newline.
   */
  function MatchesHex24AsWritten(s: string): (b: bool)
    ensures b <==> IsHex24(s) || (|s| == 25 && s[24] == '\n' && IsHex24(s[..24]))
  {
    HexRun(s) >= 24 && (|s| == 24 || (|s| == 25 && s[24] == '\n'))
  }

  /** The pattern anchored at the very end of the subject, as evidently intended. */
  function MatchesHex24(s: string): (b: bool)
    ensures b <==> IsHex24(s)
  {
    |s| == 24 && HexRun(s) == 24
  }

  /** The decimal digits of a natural number, as PHP writes it. */
  function Digits(n: nat): (s: string)
    ensures |s| >= 1
    ensures forall i :: 0 <= i < |s| ==> '0' <= s[i] <= '9'
  {
    if n < 10 then [('0' as int + n) as char] else Digits(n / 10) + [('0' as int + n % 10) as char]
  }

  function Pow10(k: nat): (p: nat)
    ensures p >= 1
  {
    if k == 0 then 1 else 10 * Pow10(k - 1)
  }

  /** A number below 10^k is written with at most k digits. */
  lemma {:induction false} DigitsLength(n: nat, k: nat)
    requires n < Pow10(k)
    ensures |Digits(n)| <= k || (n == 0 && k == 0)
    decreases k
  {
    if k > 0 && n >= 10 {
      DigitsLength(n / 10, k - 1);
    }
  }

  /** The string PHP converts a scalar to before matching it against a pattern. */
  function ScalarString(v: Value): string
    requires IsScalar(v)
  {
    match v
    case Bool(b) => if b then "1" else ""
    case Int(i) => if i < 0 then "-" + Digits(-i) else Digits(i)
    case Str(s) => s
  }

  /**
   * isMongoId($id, $instance) as written: an identifier object when `instance`
   * is set, or a scalar whose text matches the pattern.
   */
  function IsMongoIdAsWritten(v: Value, instance: bool): (b: bool)
    ensures b <==> || (instance && v.MongoId?)
                   || (IsScalar(v) && var t := ScalarString(v);
                       IsHex24(t) || (|t| == 25 && IsHex24(t[..24]) && t[24] == '\n'))
  {
    if instance && v.MongoId? then true
    else if !IsScalar(v) then false
    else MatchesHex24AsWritten(ScalarString(v))
  }

  /** isMongoId() with the pattern anchored at the very end of the subject. */
  function IsMongoId(v: Value, instance: bool): (b: bool)
    ensures b <==> (instance && v.MongoId?) || (IsScalar(v) && IsHex24(ScalarString(v)))
  {
    if instance && v.MongoId? then true
    else if !IsScalar(v) then false
    else MatchesHex24(ScalarString(v))
  }

  /** Only a string's text can be an identifier: a boolean or a 64-bit integer never is. */
  lemma NoScalarNumberIsHex24(v: Value)
    requires IsScalar(v)
    requires v.Int? ==> -0x8000_0000_0000_0000 <= v.i < 0x8000_0000_0000_0000
    ensures IsHex24(ScalarString(v)) ==> v.Str?
  {
    if v.Int? {
      var m: nat := if v.i < 0 then -v.i else v.i;
      assert Pow10(5) == 100_000;
      assert Pow10(10) == 10_000_000_000;
      assert Pow10(15) == 1_000_000_000_000_000;
      assert Pow10(19) == 10_000_000_000_000_000_000;
      DigitsLength(m, 19);
    }
  }

  /** The as-written check accepts 24 hexadecimal digits followed by a newline. */
  lemma TrailingNewlineAccepted()
    ensures var s := "0123456789abcdef01234567\n";
            IsMongoIdAsWritten(Str(s), true) && !IsHex24(s) && !IsMongoId(Str(s), true)
  {
    var s := "0123456789abcdef01234567\n";
    assert IsHex24(s[..24]);
  }

  /** Any string the as-written check accepts is an identifier text, possibly with one newline appended. */
  lemma AsWrittenAcceptsAtMostNewline(s: string)
    ensures IsMongoIdAsWritten(Str(s), false) <==> IsMongoId(Str(s), false) || (|s| == 25 && s[24] == '\n' && IsHex24(s[..24]))
  {
  }

  // ---------------------------------------------------------------------------
  // Messages

  /** The placeholder starts at position `i` of `s`. */
  predicate PlaceholderAt(s: string, i: int)
  {
    0 <= i && i + |Placeholder| <= |s| && s[i..i + |Placeholder|] == Placeholder
  }

  /** The placeholder occurs somewhere in `s`. */
  predicate HasPlaceholder(s: string)
  {
    exists i | 0 <= i <= |s| :: PlaceholderAt(s, i)
  }

  /** The tail of a text without the placeholder is without it too. */
  lemma NoPlaceholderTail(s: string)
    requires s != [] && !HasPlaceholder(s)
    ensures !HasPlaceholder(s[1..])
  {
    if HasPlaceholder(s[1..]) {
      var i :| 0 <= i <= |s[1..]| && PlaceholderAt(s[1..], i);
      assert s[1..][i..i + |Placeholder|] == s[i + 1..i + 1 + |Placeholder|];
      assert PlaceholderAt(s, i + 1);
    }
  }

  /**
   * The base validator's `strtr($message, ['{attribute}' => $label])`: every
   * occurrence of the placeholder, scanning left to right, becomes the label.
   */
  function Substitute(message: string, caption: string): (r: string)
    ensures !HasPlaceholder(message) ==> r == message
    decreases |message|
  {
    if |message| >= |Placeholder| && message[..|Placeholder|] == Placeholder then
      assert PlaceholderAt(message, 0);
      caption + Substitute(message[|Placeholder|..], caption)
    else if message == [] then []
    else
      var rest := Substitute(message[1..], caption);
      if HasPlaceholder(message) then [message[0]] + rest
      else NoPlaceholderTail(message); [message[0]] + rest
  }

  /** A text without an opening brace holds no placeholder. */
  lemma NoBraceNoPlaceholder(t: string)
    requires '{' !in t
    ensures !HasPlaceholder(t)
  {
    forall i | 0 <= i <= |t|
      ensures !PlaceholderAt(t, i)
    {
      if i + |Placeholder| <= |t| {
        assert t[i..i + |Placeholder|][0] == t[i];
      }
    }
  }

  /**
   * A message of the shape of the default ones, the placeholder followed by
   * plain text, reads as the label followed by that text.
   */
  lemma SubstituteLeading(t: string, caption: string)
    requires '{' !in t
    ensures Substitute(Placeholder + t, caption) == caption + t
  {
    var m := Placeholder + t;
    assert m[..|Placeholder|] == Placeholder && m[|Placeholder|..] == t;
    NoBraceNoPlaceholder(t);
  }

  // ---------------------------------------------------------------------------
  // The rule

  /** The validated model as the rule sees it: its attribute values and its error store. */
  class Subject {
    var attrs: map<string, Value>
    var errors: Errors

    constructor (attrs: map<string, Value>)
      ensures this.attrs == attrs && errors == []
    {
      this.attrs := attrs;
      errors := [];
    }
  }

  /** The conversions the rule relies on, supplied by the runtime. */
  datatype Runtime = Runtime(
    numeric: string -> Option<int>,  // is_numeric() of a string, with the seconds MongoDate takes from it
    strtotime: Value -> Option<int>, // strtotime(): a timestamp, or None for PHP's false
    attributeLabel: string -> string) // the model's getAttributeLabel()

  /**
   * The value after the rule's conversion. With filtering on, a value that is not
   * empty is converted: for type `id` a 24-digit identifier text becomes an
   * identifier object; for type `date` a numeric value, a DateTime, or a value
   * strtotime() understands becomes a date object, tried in that order.
   */
  function Filtered(kind: string, filter: bool, value: Value, rt: Runtime): (r: Value)
    ensures r != value ==> filter && !IsEmpty(value)
    ensures kind != TypeObjectId && kind != TypeDate ==> r == value
    // an identifier text is converted, and nothing else is
    ensures kind == TypeObjectId ==> (r != value <==> filter && value.Str? && IsHex24(value.s))
    ensures kind == TypeObjectId && filter && value.Str? && IsHex24(value.s) ==> r == MongoId(value.s)
    ensures kind == TypeObjectId ==> (r.MongoId? <==> value.MongoId? || (filter && value.Str? && IsHex24(value.s)))
    // a date results exactly when one of the three conversions applies
    ensures kind == TypeDate ==>
              (r.MongoDate? <==> || value.MongoDate?
                                 || (filter && !IsEmpty(value) &&
                                     (value.Int? || (value.Str? && rt.numeric(value.s).Some?) ||
                                      value.DateTime? || rt.strtotime(value).Some?)))
    // ... tried in this order: a number first, even one strtotime() would also read ...
    ensures kind == TypeDate && filter && !IsEmpty(value) && value.Int? ==> r == MongoDate(value.i)
    ensures kind == TypeDate && filter && !IsEmpty(value) && value.Str? && rt.numeric(value.s).Some? ==>
              r == MongoDate(rt.numeric(value.s).value)
    // ... then a DateTime, by its timestamp ...
    ensures kind == TypeDate && filter && !IsEmpty(value) && value.DateTime? ==> r == MongoDate(value.ts)
    // ... and strtotime() only as the last resort
    ensures kind == TypeDate && r != value && !value.Int? && !(value.Str? && rt.numeric(value.s).Some?) && !value.DateTime? ==>
              rt.strtotime(value).Some? && r == MongoDate(rt.strtotime(value).value)
  {
    if !filter || IsEmpty(value) then value
    else if kind == TypeObjectId then
      if value.Str? && MatchesHex24(value.s) then MongoId(value.s) else value
    else if kind == TypeDate then
      if value.Int? then MongoDate(value.i)
      else if value.Str? && rt.numeric(value.s).Some? then MongoDate(rt.numeric(value.s).value)
      else if value.DateTime? then MongoDate(value.ts)
      else if rt.strtotime(value).Some? then MongoDate(rt.strtotime(value).value)
      else value
    else value
  }

  class EMongoValidator {
    /** The configured options; the defaults are those of the PHP class. */
    var kind: string
    var allowEmpty: bool
    var filter: bool
    var message: Option<string>

    constructor ()
      ensures kind == TypeObjectId && allowEmpty && filter && message == None
    {
      kind := TypeObjectId;
      allowEmpty := true;
      filter := true;
      message := None;
    }

    /**
     * The decision procedure of validateAttribute(): the default message to
     * report, if any, and the value after conversion. An empty value is neither
     * converted nor type-checked; an unknown type raises, but only for a value
     * that is not empty.
     */
    method Check(value: Value, rt: Runtime) returns (r: Result<(Option<string>, Value)>)
      ensures IsEmpty(value) ==> r == Ok((if allowEmpty then None else Some(EmptyMessage), value))
      ensures !IsEmpty(value) && kind != TypeObjectId && kind != TypeDate ==> r == Err(InvalidType(kind))
      ensures !IsEmpty(value) && kind == TypeObjectId ==>
                r.Ok? && (r.value.0 == None <==> r.value.1.MongoId?) && (r.value.0.Some? ==> r.value.0.value == IdMessage)
      ensures !IsEmpty(value) && kind == TypeDate ==>
                r.Ok? && (r.value.0 == None <==> r.value.1.MongoDate?) && (r.value.0.Some? ==> r.value.0.value == DateMessage)
      ensures r.Ok? ==> r.value.1 == Filtered(kind, filter, value, rt)
    {
      var msg: Option<string> := None;
      var v := value;
      if IsEmpty(v) {
        if !allowEmpty {
          msg := Some(EmptyMessage);
        }
      } else if kind == TypeObjectId {
        if filter && v.Str? && |v.s| == 24 && MatchesHex24AsWritten(v.s) {
          v := MongoId(v.s);
        }
        if !v.MongoId? {
          msg := Some(IdMessage);
        }
      } else if kind == TypeDate {
        var isNumeric := v.Int? || (v.Str? && rt.numeric(v.s).Some?);
        if filter && isNumeric {
          v := if v.Int? then MongoDate(v.i) else MongoDate(rt.numeric(v.s).value);
        } else if filter && v.DateTime? {
          v := MongoDate(v.ts);
        } else if filter && rt.strtotime(v).Some? {
          v := MongoDate(rt.strtotime(v).value);
        }
        if !v.MongoDate? {
          msg := Some(DateMessage);
        }
      } else {
        return Err(InvalidType(kind));
      }
      r := Ok((msg, v));
    }

    /**
     * validateAttribute($object, $attribute): on a reported problem the message
     * (the configured one when set) is added under the attribute with its label
     * substituted, and the attribute is left alone; otherwise, with filtering on,
     * a converted value is written back. Reading an attribute the model does not
     * have raises.
     */
    method ValidateAttribute(m: Subject, attribute: string, rt: Runtime) returns (r: Result<()>)
      modifies m
      ensures attribute !in old(m.attrs) ==> r == Err(UndefinedProperty(attribute))
      ensures r.Err? ==> m.attrs == old(m.attrs) && m.errors == old(m.errors)
      ensures r.Ok? ==> attribute in m.attrs && m.attrs.Keys == old(m.attrs).Keys
      ensures r.Ok? ==> forall a :: a in m.attrs && a != attribute ==> m.attrs[a] == old(m.attrs)[a]
      ensures r.Ok? ==> m.errors == old(m.errors) || m.attrs == old(m.attrs)
      ensures r.Ok? && m.errors != old(m.errors) ==>
                var default := if IsEmpty(old(m.attrs)[attribute]) then EmptyMessage
                               else if kind == TypeObjectId then IdMessage else DateMessage;
                m.errors == old(m.errors) + [(attribute, Substitute(if message.Some? then message.value else default, rt.attributeLabel(attribute)))]
      ensures r.Ok? && m.errors == old(m.errors) ==>
                m.attrs == old(m.attrs)[attribute := Filtered(kind, filter, old(m.attrs)[attribute], rt)]
      ensures !filter ==> m.attrs == old(m.attrs)
      ensures attribute in old(m.attrs) && !IsEmpty(old(m.attrs)[attribute]) && kind != TypeObjectId && kind != TypeDate ==>
                r == Err(InvalidType(kind))
      ensures attribute in old(m.attrs) && (IsEmpty(old(m.attrs)[attribute]) || kind == TypeObjectId || kind == TypeDate) ==>
                r.Ok?
      ensures r.Ok? && kind == TypeObjectId ==>
                (m.errors == old(m.errors) <==>
                   (IsEmpty(old(m.attrs)[attribute]) && allowEmpty) || Filtered(kind, filter, old(m.attrs)[attribute], rt).MongoId?)
      ensures r.Ok? && kind == TypeDate ==>
                (m.errors == old(m.errors) <==>
                   (IsEmpty(old(m.attrs)[attribute]) && allowEmpty) || Filtered(kind, filter, old(m.attrs)[attribute], rt).MongoDate?)
    {
      if attribute !in m.attrs {
        return Err(UndefinedProperty(attribute));
      }
      var value := m.attrs[attribute];
      var c := Check(value, rt);
      if c.Err? {
        return Err(c.fault);
      }
      var (msg, v) := c.value;
      if msg.Some? {
        var text := if message.Some? then message.value else msg.value;
        m.errors := m.errors + [(attribute, Substitute(text, rt.attributeLabel(attribute)))];
      } else if filter && m.attrs[attribute] != v {
        m.attrs := m.attrs[attribute := v];
      }
      r := Ok(());
    }
  }
}

=== FILE: php_arrays.dfy ===
/**
 * PHP arrays with string keys: ordered maps. `$a[$k] = $v` keeps an existing
 * key in place and appends a new one; `unset($a[$k])` drops the key and keeps
 * the order of the rest. An array is a sequence of key/value pairs.
 */
module PhpArrays {
  import opened PhpValues

  /** `array_keys($a)`: the keys, in order. */
  function Keys<V>(a: seq<(string, V)>): (ks: seq<string>)
    ensures |ks| == |a|
  {
    if a == [] then [] else [a[0].0] + Keys(a[1..])
  }

  /** `array_keys`: the key at each position is the key of the entry at that position. */
  lemma {:induction false} KeysIndexed<V>(a: seq<(string, V)>)
    ensures forall i :: 0 <= i < |a| ==> Keys(a)[i] == a[i].0
  {
    if a != [] {
      KeysIndexed(a[1..]);
      assert forall i :: 1 <= i < |a| ==> Keys(a)[i] == Keys(a[1..])[i - 1];
    }
  }

  /** No key occurs twice: every PHP array has this shape. */
  predicate UniqueKeys<V>(a: seq<(string, V)>)
  {
    a == [] || (a[0].0 !in Keys(a[1..]) && UniqueKeys(a[1..]))
  }

  /** No element occurs twice. */
  predicate Distinct<T(==)>(s: seq<T>)
  {
    forall i, j :: 0 <= i < j < |s| ==> s[i] != s[j]
  }

  /** An element of a non-empty sequence is its last element or an element before it. */
  lemma InFrontOrLast<T>(s: seq<T>, x: T)
    requires x in s
    ensures x == s[|s| - 1] || x in s[..|s| - 1]
  {
    var i :| 0 <= i < |s| && s[i] == x;
    if i < |s| - 1 {
      assert s[..|s| - 1][i] == x;
    }
  }

  /** The keys of a PHP array are distinct. */
  lemma {:induction false} UniqueKeysDistinct<V>(a: seq<(string, V)>)
    requires UniqueKeys(a)
    ensures Distinct(Keys(a))
    decreases |a|
  {
    if a != [] {
      UniqueKeysDistinct(a[1..]);
      var ks := Keys(a);
      assert ks == [a[0].0] + Keys(a[1..]);
      forall i, j | 0 <= i < j < |ks| ensures ks[i] != ks[j] {
        if i == 0 {
          assert ks[j] == Keys(a[1..])[j - 1];
        } else {
          assert ks[i] == Keys(a[1..])[i - 1] && ks[j] == Keys(a[1..])[j - 1];
        }
      }
    }
  }

  /** `$a[$k]` where the key may be missing (`array_key_exists` decides). */
  function Lookup<V>(a: seq<(string, V)>, k: string): (r: Option<V>)
    ensures r.Some? <==> k in Keys(a)
  {
    if a == [] then None
    else if a[0].0 == k then Some(a[0].1)
    else Lookup(a[1..], k)
  }

  /** `$a[$k] = $v`: replaces the value in place when the key exists, otherwise appends. */
  function Put<V>(a: seq<(string, V)>, k: string, v: V): (r: seq<(string, V)>)
    ensures Lookup(r, k) == Some(v)
    ensures k in Keys(a) ==> Keys(r) == Keys(a)
    ensures k !in Keys(a) ==> Keys(r) == Keys(a) + [k]
    ensures UniqueKeys(a) ==> UniqueKeys(r)
  {
    if a == [] then [(k, v)]
    else if a[0].0 == k then [(k, v)] + a[1..]
    else
      var r := [a[0]] + Put(a[1..], k, v);
      assert k !in Keys(a) ==> Keys(r) == Keys(a) + [k];
      r
  }

  /** The names of `ks` other than `k`, in order. */
  function Without(ks: seq<string>, k: string): (r: seq<string>)
    ensures forall x :: x in r <==> x in ks && x != k
  {
    if ks == [] then []
    else if ks[0] == k then Without(ks[1..], k)
    else [ks[0]] + Without(ks[1..], k)
  }

  /** `unset($a[$k])`: removes the key and keeps the others in their order. */
  function Remove<V>(a: seq<(string, V)>, k: string): (r: seq<(string, V)>)
    ensures Lookup(r, k) == None
    ensures forall k' :: k' != k ==> Lookup(r, k') == Lookup(a, k')
    ensures Keys(r) == Without(Keys(a), k)
    ensures UniqueKeys(a) ==> UniqueKeys(r)
  {
    if a == [] then []
    else
      var rest := Remove(a[1..], k);
      assert Keys(a) == [a[0].0] + Keys(a[1..]);
      if a[0].0 == k then rest
      else
        assert Keys([a[0]] + rest) == [a[0].0] + Keys(rest);
        [a[0]] + rest
  }

  /** Writing one key leaves every other key's entry as it was. */
  lemma {:induction false} PutOther<V>(a: seq<(string, V)>, k: string, v: V, k': string)
    requires k' != k
    ensures Lookup(Put(a, k, v), k') == Lookup(a, k')
    decreases |a|
  {
    if a != [] && a[0].0 != k {
      PutOther(a[1..], k, v, k');
    }
  }

  /** The value found under a key is the value of an entry with that key. */
  lemma {:induction false} LookupIsEntry<V>(a: seq<(string, V)>, k: string)
    requires k in Keys(a)
    ensures (k, Lookup(a, k).value) in a
    decreases |a|
  {
    if a[0].0 != k {
      assert k in Keys(a[1..]);
      LookupIsEntry(a[1..], k);
    }
  }
}

=== FILE: php_values.dfy ===
/**
 * The PHP runtime values the document layer handles: scalars, ordered
 * arrays, the driver's identifier and date objects and other objects, plus
 * the outcome types used where PHP raises a fatal error or an exception.
 */
module PhpValues {

  datatype Option<+T> = None | Some(value: T)

  /** Why an operation did not complete: a PHP fatal error or an exception. */
  datatype Fault =
    | NullStore                      // a method called on the absent slot store (`$this->_embedded` is null)
    | UndefinedProperty(name: string) // the base component's "property is not defined" exception
    | InvalidType(tag: string)        // the validator's "Invalid validation type" exception

  datatype Result<+T> = Ok(value: T) | Err(fault: Fault)

  /** A PHP value. Arrays are ordered string-keyed maps (see PhpArrays). */
  datatype Value =
    | Null
    | Bool(b: bool)
    | Int(i: int)
    | Str(s: string)
    | Arr(entries: seq<(string, Value)>)
    | MongoId(hex: string)    // driver identifier object
    | MongoDate(sec: int)     // driver date object
    | DateTime(ts: int)       // PHP DateTime object, by its timestamp
    | Obj                     // any other object, e.g. a document kept in a plain property

  /** PHP's `empty()`: null, false, 0, "", "0" and the empty array. Objects are never empty. */
  predicate IsEmpty(v: Value)
  {
    match v
    case Null => true
    case Bool(b) => !b
    case Int(i) => i == 0
    case Str(s) => s == "" || s == "0"
    case Arr(e) => e == []
    case _ => false
  }

  /** PHP's `is_scalar()`. */
  predicate IsScalar(v: Value)
  {
    v.Bool? || v.Int? || v.Str?
  }

  /** PHP's `instanceof` test against an object class. */
  predicate IsObject(v: Value)
  {
    v.MongoId? || v.MongoDate? || v.DateTime? || v.Obj?
  }
}

=== FILE: soft_attributes.dfy ===
/**
 * The pure side of EMongoSoftEmbeddedDocument.php: the soft-attribute array
 * is a PHP array from attribute name to value, consulted before the embedded
 * and plain attributes. Its effect on the attribute listing and on the array
 * conversion is stated here; the accessors live on the document class.
 */
module SoftAttributes {
  import opened PhpValues
  import opened PhpArrays

  /** `attributeNames()`: the soft keys in array order, then the inherited names, not deduplicated. */
  function ListedNames(soft: seq<(string, Value)>, inherited: seq<string>): (ns: seq<string>)
    ensures |ns| == |soft| + |inherited|
    ensures ns[..|soft|] == Keys(soft) && ns[|soft|..] == inherited
  {
    Keys(soft) + inherited
  }

  /**
   * The loop of the soft `_toArray()`: every soft attribute whose value is not
   * null is written over the inherited conversion `arr`.
   */
  function Overlay(arr: seq<(string, Value)>, soft: seq<(string, Value)>): seq<(string, Value)>
    decreases |soft|
  {
    if soft == [] then arr
    else Overlay(if soft[0].1 != Null then Put(arr, soft[0].0, soft[0].1) else arr, soft[1..])
  }

  /**
   * After the overlay a key holds its soft value when that value is not null,
   * and what the inherited conversion put there otherwise.
   */
  lemma {:induction false} OverlayLookup(arr: seq<(string, Value)>, soft: seq<(string, Value)>, k: string)
    requires UniqueKeys(soft)
    ensures Lookup(Overlay(arr, soft), k) ==
              if k in Keys(soft) && Lookup(soft, k).value != Null then Lookup(soft, k) else Lookup(arr, k)
    decreases |soft|
  {
    if soft != [] {
      var next := if soft[0].1 != Null then Put(arr, soft[0].0, soft[0].1) else arr;
      assert Keys(soft) == [soft[0].0] + Keys(soft[1..]);
      OverlayLookup(next, soft[1..], k);
      if soft[0].0 != k && soft[0].1 != Null {
        PutOther(arr, soft[0].0, soft[0].1, k);
      }
    }
  }

  /** The overlay adds exactly the keys of the non-null soft attributes. */
  lemma {:induction false} OverlayKeys(arr: seq<(string, Value)>, soft: seq<(string, Value)>, k: string)
    requires UniqueKeys(soft)
    ensures k in Keys(Overlay(arr, soft)) <==>
              k in Keys(arr) || (k in Keys(soft) && Lookup(soft, k).value != Null)
  {
    OverlayLookup(arr, soft, k);
  }
}

=== FILE: validation.dfy ===
/**
 * The validation semantics of EMongoEmbeddedDocument.php, stated on a snapshot
 * of a document tree: what `validate($attributes, $clearErrors)` answers and
 * what it leaves in the document's error store. The rule validators of the base
 * model are abstracted to the messages they report.
 */
module Validation {
  import opened PhpValues

  /**
   * The error store of the base model, as the log of (attribute, message) pairs
   * in the order they were added. The base model's per-attribute message arrays
   * are its projections (Messages), and `addErrors()` appends to the log.
   */
  type Errors = seq<(string, string)>

  /** `getErrors($attribute)`: the messages of one attribute, oldest first. */
  function Messages(e: Errors, a: string): seq<string>
  {
    if e == [] then []
    else (if e[0].0 == a then [e[0].1] else []) + Messages(e[1..], a)
  }

  /** Appending to the log appends to every attribute's message array, and to nothing else. */
  lemma {:induction false} MessagesAppend(e1: Errors, e2: Errors, a: string)
    ensures Messages(e1 + e2, a) == Messages(e1, a) + Messages(e2, a)
    decreases |e1|
  {
    if e1 == [] {
      assert e1 + e2 == e2;
    } else {
      assert (e1 + e2)[0] == e1[0] && (e1 + e2)[1..] == e1[1..] + e2;
      MessagesAppend(e1[1..], e2, a);
    }
  }

  /** Appending two logs one after the other appends their concatenation. */
  lemma AppendTwice(e: Errors, e1: Errors, e2: Errors)
    ensures e + e1 + e2 == e + (e1 + e2)
  {
  }

  /** The entries of `e` whose attribute is one of `names`, in order. */
  function Only(e: Errors, names: seq<string>): (r: Errors)
    ensures forall x :: x in r <==> x in e && x.0 in names
  {
    if e == [] then []
    else (if e[0].0 in names then [e[0]] else []) + Only(e[1..], names)
  }

  /** Restricting to `names` keeps the messages of a listed attribute and drops the others'. */
  lemma {:induction false} MessagesOnly(e: Errors, names: seq<string>, a: string)
    ensures Messages(Only(e, names), a) == if a in names then Messages(e, a) else []
    decreases |e|
  {
    if e != [] {
      MessagesAppend(if e[0].0 in names then [e[0]] else [], Only(e[1..], names), a);
      MessagesOnly(e[1..], names, a);
    }
  }

  /** What the rules report when only the attributes in `sub` (all when absent) are validated. */
  function RulesFor(rules: Errors, sub: Option<seq<string>>): Errors
  {
    if sub.None? then rules else Only(rules, sub.value)
  }
}
